=== FILE: README.md ===
# EduNotes storage core in Dafny

EduNotes is a study-notes portal. An admin uploads notes (PDF or DOC files
stored as data URLs), tagged by subject and semester. Students see the notes of
their current and earlier semesters. They can search them, bookmark them, read
notifications and send feedback. All of its non-UI decisions live in one
repository class, `AppStorage`, which keeps five collections in the browser's
key-value store. Each collection is one key holding a JSON list:

- notes
- notifications
- bookmarks
- feedback
- student profiles

Every operation reads whole lists and, if it mutates, writes the complete new
list back.

This project models that class as pure functions over an immutable `Store`
record:

- `wrappers.dfy`: `Option`.
- `seqs.dfy`: order-preserving `Filter`, `FindIndex`, `Take` and the
  subsequence relation, with their lemmas.
- `text.dfy`:
  - JavaScript's `toLowerCase` (ASCII letters only) and `includes`;
  - `parseInt` without a radix: leading white space, a sign, a `0x` prefix,
    the longest digit run, and `NaN` as `None`;
  - decimal numerals and their parse.
- `order.dfy`: the default string order of `Array.prototype.sort`, duplicate
  removal as `[...new Set(xs)]` does it, and an insertion sort.
- `entities.dfy`: the five record types.
- `defaults.dfy`: the four sample notes and the welcome notification that a
  first read writes.
- `storage.dfy`: every `AppStorage` operation. A query over notes is split in two. A list-level function carries the contract; it is the `filter`/`map` the source applies to the result of `getNotes()`. A store-level function applies it to the stored list.
- `storage_properties.dfy`: properties that relate several calls:
  - stability after seeding;
  - idempotence;
  - add/remove round trips;
  - case-insensitive search;
  - the recent-uploads window counted in days;
  - dangling bookmarks;
  - uniqueness of the subject list;
  - the first-run scenarios.

The notes and notifications keys are `Option`s. `None` stands for a key that
was never written, or that holds the empty string, since the source tests the
stored text for truthiness. A read of such a key returns the defaults and
writes them (`GetNotes` and `GetNotifications` return the list together with
the store after that write). A key that holds `[]` is not absent, so it is
never seeded again (`StorageProperties.EmptyListIsNotReseeded`): seeding
happens only when the key is missing. Bookmarks, feedback and profiles read as `[]` when absent and are
never written back by a read, so they are plain sequences.

Ids, time stamps and the current time come from `Date.now()` and `new Date()`
in the source. Here they are parameters:

- `id` and `bookmarkedAt` for `AddBookmark`;
- `id` and `submittedAt` for `AddFeedback`;
- `today` for the welcome notification's date;
- `nowMs` for `GetRecentNotes`, whose `days` argument is optional (`None` is the default of seven days).

An upload date is a day number (days since 1970-01-01), and it is compared at
that day's UTC midnight.

## Model

| member | source | states |
|---|---|---|
| Storage.GetNotes | lib/storage.ts:56-60 | The stored list is returned unchanged when the key exists. An absent key yields the four sample notes, and those are written. Either way the key holds the returned list afterwards and nothing else in the store changes. |
| Storage.AddNote | lib/storage.ts:67-71 | The note list afterwards is the new note followed by the old list. Nothing else changes. |
| Storage.WithoutId | lib/storage.ts:74 | A note is kept iff it is in the list and its id differs from the deleted id. Each survivor keeps its number of copies (multiset count) and its order (an ordered subsequence). |
| Storage.DeleteNote | lib/storage.ts:73-76 | The note list afterwards is the list read with the notes carrying the id removed. Nothing else changes. |
| Storage.Accessible | lib/storage.ts:79-82 | A note is kept iff it is in the list and `parseInt` of its semester is a number at most the viewer's semester (`CanAccess`). Each kept note keeps its number of copies, and the result keeps the list's order. |
| Storage.CanAccess | lib/storage.ts:81 | The access test `parseInt(semester) <= currentSemester`: it fails whenever the semester text has no decimal digit (`NaN` compares false). Partners: `StorageProperties.AddedNoteVisibleFromItsSemester` (iff k <= s) and `StorageProperties.UnparsableSemesterHidden` (never for `NaN`). |
| Storage.GetAccessibleNotes | lib/storage.ts:79-82 | Over the list `getNotes` returns: a note is returned iff it is stored and accessible, with all its stored copies, in stored order. |
| Storage.FilterByText | lib/storage.ts:88-96 | A note is kept iff the lower-cased title, subject, description (if present) or some tag contains the term. Each kept note keeps its number of copies; the result is an ordered subsequence. |
| Storage.FilterExact | lib/storage.ts:98-104 | A note is kept iff the selected field (semester text or subject) equals the filter value exactly. Each kept note keeps its number of copies; the result is an ordered subsequence. |
| Storage.Search | lib/storage.ts:88-106 | The result is an ordered subsequence of the base list. A note is returned iff it is in the base list and passes every active filter (conjunction), with as many copies as the base list holds. An empty query with both filters off returns the base list exactly. |
| Storage.SearchNotes | lib/storage.ts:85-107 | A note is returned iff it is in the base list (the accessible notes when `currentSemester` is truthy, all stored notes otherwise) and passes every active filter, with all its copies, as an ordered subsequence of the stored notes. With a viewer semester every note returned is accessible, so search never widens access. |
| Storage.GetNotifications | lib/storage.ts:110-114 | The stored list is returned unchanged when present. An absent key yields the welcome notification, which is written. |
| Storage.AddNotification | lib/storage.ts:121-125 | The key is written, and the list it holds is the new notification followed by the list read. Partner: `StorageProperties.AddNotificationUnreadCount`. |
| Storage.MarkRead | lib/storage.ts:129-131 | Length and order are kept. Every record with the id becomes read with its other fields kept, and every other record is unchanged. |
| Storage.MarkNotificationAsRead | lib/storage.ts:127-133 | The key is written, and the list it holds is the pointwise `MarkRead` of the list read. Nothing else changes. |
| Storage.UnreadCount | app/dashboard/page.tsx:145 | The badge count is at most the number of notifications; it is zero iff every notification is read and equals the length iff none is. Partners: `StorageProperties.MarkReadUnreadCount`, `StorageProperties.AddNotificationUnreadCount`. |
| Storage.IsBookmarked | lib/storage.ts:165-168 | `isBookmarked` holds iff the student's own bookmark records (the input of `getBookmarkedNotes`) include one for the note. Partners: the ensures of `AddBookmark` and `RemoveBookmark`, and `StorageProperties.BookmarkToggleScenario`. |
| Storage.AddBookmark | lib/storage.ts:147-157 | The pair is bookmarked afterwards. The new record is appended after the untouched old list, duplicates allowed. A pair is bookmarked afterwards iff it was before or it is the added pair. |
| Storage.RemoveBookmark | lib/storage.ts:159-168 | The pair is no longer bookmarked. A record remains iff it was stored and belongs to another pair, with all its copies, in order. Every other pair keeps its bookmarked status. |
| Storage.FindNote | lib/storage.ts:174 | A found note is stored, carries the id and is the first such note. `None` means no stored note carries the id. |
| Storage.JoinNotes | lib/storage.ts:173-175 | The `i`-th note returned is the first stored note with the id of the `i`-th bookmark that resolves, so there is exactly one note per resolving bookmark, in bookmark order, duplicates included. Every resolving bookmark's note is returned, and every note returned is stored and the target of some bookmark. |
| Storage.BookmarkedNotes | lib/storage.ts:170-176 | Position by position, the notes of the student's resolving bookmarks in bookmark order: one per resolving bookmark, at most one per bookmark of the student. Every resolving bookmark of the student contributes its note. Every note returned is stored and bookmarked by the student. |
| Storage.GetBookmarkedNotes | lib/storage.ts:170-176 | Over the stored bookmarks and notes: the `i`-th note returned is the note of the student's `i`-th bookmark that resolves, so there is one per such bookmark, duplicates included. Every note returned is stored and bookmarked by the student, and every resolving bookmark of the student contributes its note. Partner: `StorageProperties.DanglingBookmarkIsDropped`. |
| Storage.AddFeedback | lib/storage.ts:190-200 | The draft, completed with the given id, time stamp and status pending, is put in front of the old list. Partner: `StorageProperties.AddFeedbackPendingCount`. |
| Storage.PendingCount | app/admin/page.tsx:180 | The count equals the length of the list filtered to pending records. Hence it is at most the number of records, and zero iff no record is pending. |
| Storage.GetStudentProfile | lib/storage.ts:214-217 | A returned profile is stored, has the id and is the first stored profile with that id. `null` means no stored profile has the id. |
| Storage.UpdateStudentProfile | lib/storage.ts:219-228 | Afterwards the lookup by the profile's id finds the profile. Lookups of every other id are unchanged. The list grows by one exactly when the id was new. Every other position keeps its profile: an existing id is replaced in place, and a new profile is appended at the end. |
| Storage.Recent | lib/storage.ts:231-240 | At most ten notes are returned, all in the list and uploaded at or after now minus `days` days. They are the first such notes in list order: exactly ten when at least ten are recent, otherwise all of them. |
| Storage.GetRecentNotes | lib/storage.ts:231-240 | Over the stored notes, with the window defaulting to seven days: a prefix of the notes uploaded within the window, ten of them when at least ten are recent and all of them otherwise. Partner: `StorageProperties.RecentWindowInDays`. |
| Storage.Subjects | lib/storage.ts:245 | One subject per note, position by position. |
| Storage.UniqueSubjects | lib/storage.ts:243-247 | Strictly ascending, hence sorted and duplicate-free. A string is in the result iff some note of the list has it as subject. |
| Storage.GetUniqueSubjects | lib/storage.ts:243-247 | Over the stored notes: strictly ascending, and a string is listed iff some stored note has it as subject. Partner: `StorageProperties.UniqueSubjectsIsCanonical`. |
| Text.ToLower | lib/storage.ts:89 | Same length; every character lower-cased (ASCII letters map to lower case, everything else kept). |
| Text.ToLowerIdempotent | lib/storage.ts:89-94 | Lower-casing twice is lower-casing once. This is why an already lower-cased query matches like the original. |
| Text.Contains | lib/storage.ts:91-94 | `includes`: the empty needle occurs everywhere, and a needle longer than the haystack nowhere. Partner: `Text.ContainsIffOccurs`, the position-based reference definition. |
| Text.ContainsIffOccurs | lib/storage.ts:91-94 | `includes` holds iff the needle occurs at some position of the haystack. |
| Text.ParseInt | lib/storage.ts:81 | `parseInt` without a radix yields `NaN` for any text without a decimal digit. Partners: `Text.ParseDecimal` (round trip with `Decimal`), `Text.ParseUnsigned`, `Text.ParseSkipsWhiteSpace`. |
| Text.TrimStart | lib/storage.ts:81 | `parseInt` skips exactly the leading white space: the skipped characters are all white space and the next is not. |
| Text.DigitPrefix | lib/storage.ts:81 | The longest run of digits at the front of the text. |
| Text.ParseDecimal | lib/storage.ts:81 | `parseInt` of a decimal numeral followed by a non-digit (other than `x`/`X` after `0`) is the number the numeral denotes. |
| Text.ParseUnsigned | lib/storage.ts:81 | Text that starts with a digit (and not with `0x`) parses to the value of its leading digit run. |
| Text.ParseSkipsWhiteSpace | lib/storage.ts:81 | A leading white-space character does not change the parse. |
| Order.Less | lib/storage.ts:246 | The comparison of `sort()` without a comparator: a proper prefix sorts first, and nothing sorts before the empty string. Partners: `Order.LessIrreflexive`, `Order.LessTransitive`, `Order.LessTotal`. |
| Order.LessTotal | lib/storage.ts:246 | The sort order puts any two different strings one before the other. |
| Order.LessTransitive | lib/storage.ts:246 | The sort order is transitive. |
| Order.Dedup | lib/storage.ts:245 | `[...new Set(xs)]` has no duplicates, exactly the elements of `xs`, and lists them in order of first occurrence. |
| Order.Sort | lib/storage.ts:246 | `sort()` returns a sorted permutation of its input. |
| Order.StrictlySortedUnique | lib/storage.ts:246 | Two strictly sorted lists with the same elements are equal. |
| StorageProperties.NotesReadIsStable | lib/storage.ts:56-60 | A read after the seeding read sees the same list and writes nothing. |
| StorageProperties.FreshStoreSeedsFourNotes | lib/storage.ts:249-305 | The first read of a fresh store yields notes "1" to "4" and stores them. The next read yields the same list. |
| StorageProperties.EmptyListIsNotReseeded | lib/storage.ts:59 | A stored empty note list reads as empty, and stays empty after adding note "1" and deleting it again. |
| StorageProperties.DeleteNoteIdempotent | lib/storage.ts:73-76 | Deleting the same id twice equals deleting it once. |
| StorageProperties.DeleteAbsentIdKeepsNotes | lib/storage.ts:73-76 | Deleting an id that no note carries leaves the list as it was. |
| StorageProperties.AddThenDeleteRestores | lib/storage.ts:67-76 | Adding a note with a fresh id and then deleting that id restores the note list. |
| StorageProperties.AddedNoteVisibleFromItsSemester | lib/storage.ts:79-82 | A note added for semester k is accessible at semester s iff k <= s. |
| StorageProperties.SemesterThreeNoteScenario | lib/storage.ts:79-82 | A semester "3" note is hidden from a semester-2 student and shown to a semester-3 student. |
| StorageProperties.UnparsableSemesterHidden | lib/storage.ts:81 | A note whose semester text has no digit is accessible at no semester. |
| StorageProperties.SearchIgnoresQueryCase | lib/storage.ts:88-95 | Searching with the lower-cased query returns the same notes as searching with the original query. |
| StorageProperties.TitlePrefixMatches | lib/storage.ts:91 | A note whose lower-cased title starts with the term matches the term. |
| StorageProperties.VisibleMatchIsFound | lib/storage.ts:85-107 | An accessible note that matches the query is found by a search whose filters are "all". |
| StorageProperties.SeedNoteTwoVisibleAtEight | lib/storage.ts:264-276 | Sample note "2" (semester "4") is accessible to a semester-8 student on a fresh store. |
| StorageProperties.DatabaseSearchFindsSeedNoteTwo | lib/storage.ts:85-107 | On a fresh store, a semester-8 student's search for "database" returns sample note "2". |
| StorageProperties.EmptySearchIsAccessibleNotes | lib/storage.ts:85-107 | With a viewer semester, an empty query and "all" filters, search returns exactly the accessible notes in order. |
| StorageProperties.MarkReadIdempotent | lib/storage.ts:127-133 | Marking an id read twice equals marking it once. |
| StorageProperties.MarkReadAbsentIsNoOp | lib/storage.ts:127-133 | Marking an id that no notification carries changes nothing. |
| StorageProperties.MarkReadUnreadCount | app/dashboard/page.tsx:145 | The unread badge count drops by exactly the number of unread notifications with the id. None with that id stay unread. |
| StorageProperties.WelcomeReadScenario | lib/storage.ts:308-321 | A fresh store has one unread notification, and none after marking notification "1" read. |
| StorageProperties.AddNotificationUnreadCount | lib/storage.ts:121-125 | Adding a notification raises the unread badge count by one when it is unread and leaves it unchanged otherwise. |
| StorageProperties.BookmarkToggleScenario | lib/storage.ts:147-168 | After adding a pair it is bookmarked. After removing it again it is not. |
| StorageProperties.AddThenRemoveBookmarkRestores | lib/storage.ts:147-163 | Bookmarking a pair that was not bookmarked and removing it again gives back the original store. |
| StorageProperties.JoinNotesSnoc | lib/storage.ts:173-175 | Joining one more bookmark appends its note when the note exists and nothing otherwise. |
| StorageProperties.DanglingBookmarkIsDropped | lib/storage.ts:170-176 | Adding a bookmark to a missing note leaves every student's bookmarked notes unchanged. |
| StorageProperties.AddFeedbackPendingCount | lib/storage.ts:190-200 | Submitting feedback raises the pending count by exactly one; every earlier record keeps its status. |
| StorageProperties.UpdateProfileIdempotent | lib/storage.ts:219-228 | Saving the same profile twice equals saving it once. |
| StorageProperties.RecentWindowInDays | lib/storage.ts:231-240 | At `t` ms into day `today`, a note is recent iff its upload day is at least `today - days`, plus one when `t > 0`. |
| StorageProperties.UniqueSubjectsIsCanonical | lib/storage.ts:243-247 | Any strictly ascending list of exactly the subjects of a note list is the list `getUniqueSubjects` computes from it. |

## Left out

- The server-side-rendering guard (`typeof window === 'undefined'`): every read returns `[]` and every write does nothing outside a browser. The model is the browser case only.
- `localStorage`, `JSON.parse` and `JSON.stringify`: the store is a record of lists. A list that fails to parse, and a storage quota error, are not modelled.
- `saveNotes`, `saveNotifications`, `saveBookmarks`, `saveFeedback` and `saveProfiles` are the record updates inside each operation. `getBookmarks`, `getFeedback` and `getProfiles` are field reads and have no member of their own.
- `fileToBase64` and `downloadFile` (lib/storage.ts:324-340): browser file and DOM APIs.
- `Date.now()` and `new Date()`: ids, time stamps, the welcome notification's date and the current time are parameters. Two calls in the same millisecond give equal ids in the source; the model takes whatever id the caller passes.
- Date-string parsing in `getRecentNotes`: an upload date is a day number. An unparsable date (`Invalid Date`, which compares false and so drops the note) is not represented.
- Storage.Recent: moves the cutoff back by `days` × 86,400,000 ms. `setDate` works in local time and differs by an hour when the window spans a daylight-saving change.
- Text.ToLower: lower-cases only the ASCII letters A–Z. JavaScript's `toLowerCase` also maps other Unicode letters (and can change a string's length), so the model's match is weaker for non-ASCII text.
- Order.Less: compares characters by code point. JavaScript compares UTF-16 code units, which orders characters outside the Basic Multilingual Plane differently.
- Text.ParseInt: returns unbounded integers. JavaScript loses precision past 2^53, which is irrelevant for semester numbers.
- Storage.GetAccessibleNotes, Storage.SearchNotes, Storage.GetBookmarkedNotes, Storage.GetRecentNotes, Storage.GetUniqueSubjects: return only the query result and drop the seed write that `getNotes` performs when the notes key is absent (lib/storage.ts:59, 304). `StorageProperties.NotesReadIsStable` shows no later read can tell the difference.
- Storage.SearchNotes: `currentSemester` is an optional integer. A `NaN` viewer semester (falsy in the source, so the unfiltered set is used) is not representable.
- StorageProperties.DatabaseSearchFindsSeedNoteTwo: states only that note "2" is found. It does not state that the other three sample notes are not found. Excluding a note means unfolding `includes` on every title, subject, description and tag of the sample notes, and their long literal fields make that proof too expensive for the solver.
- React pages and components, the admin passphrase, form state, toasts, file-size formatting, the 10-second polling and quote rotation: UI, not storage logic.
- Concurrency between tabs: the source assumes a single writer and so does the model.

=== FILE: defaults.dfy ===
/**
 The sample content written on the first read of an absent collection: four
 notes with ids "1" to "4" and a single welcome notification.
 */
module Defaults {
  import opened Wrappers
  import opened Entities

  /** Seed note "1", uploaded 2024-01-15. */
  const SeedNote1: Note := Note(
    id := "1",
    title := "Introduction to Data Structures",
    subject := "Data Structures",
    semester := "3",
    uploadDay := 19737,
    fileSize := "2.5 MB",
    fileType := Pdf,
    fileUrl := "data:application/pdf;base64,JVBERi0xLjQKJdPr6eEKMSAwIG9iago8PAovVHlwZSAvQ2F0YWxvZwovUGFnZXMgMiAwIFIKPj4KZW5kb2JqCjIgMCBvYmoKPDwKL1R5cGUgL1BhZ2VzCi9LaWRzIFszIDAgUl0KL0NvdW50IDEKPD4KZW5kb2JqCjMgMCBvYmoKPDwKL1R5cGUgL1BhZ2UKL1BhcmVudCAyIDAgUgovTWVkaWFCb3ggWzAgMCA2MTIgNzkyXQovQ29udGVudHMgNCAwIFIKPj4KZW5kb2JqCjQgMCBvYmoKPDwKL0xlbmd0aCA0NAo+PgpzdHJlYW0KQlQKL0YxIDEyIFRmCjcyIDcyMCBUZAooSW50cm9kdWN0aW9uIHRvIERhdGEgU3RydWN0dXJlcykgVGoKRVQKZW5kc3RyZWFtCmVuZG9iago1IDAgb2JqCjw8Ci9UeXBlIC9Gb250Ci9TdWJ0eXBlIC9UeXBlMQovQmFzZUZvbnQgL0hlbHZldGljYQo+PgplbmRvYmoKeHJlZgowIDYKMDAwMDAwMDAwMCA2NTUzNSBmIAowMDAwMDAwMDA5IDAwMDAwIG4gCjAwMDAwMDAwNTggMDAwMDAgbiAKMDAwMDAwMDExNSAwMDAwMCBuIAowMDAwMDAwMjA3IDAwMDAwIG4gCjAwMDAwMDAzMDEgMDAwMDAgbiAKdHJhaWxlcgo8PAovU2l6ZSA2Ci9Sb290IDEgMCBSCj4+CnN0YXJ0eHJlZgozNzAKJSVFT0Y=",
    fileName := "intro-data-structures.pdf",
    description := Some("Comprehensive introduction to data structures including arrays, linked lists, and trees"),
    tags := Some(["algorithms", "programming", "computer-science"]))

  /** Seed note "2", uploaded 2024-01-14. */
  const SeedNote2: Note := Note(
    id := "2",
    title := "Database Normalization",
    subject := "Database Management",
    semester := "4",
    uploadDay := 19736,
    fileSize := "1.8 MB",
    fileType := Pdf,
    fileUrl := "data:application/pdf;base64,JVBERi0xLjQKJdPr6eEKMSAwIG9iago8PAovVHlwZSAvQ2F0YWxvZwovUGFnZXMgMiAwIFIKPj4KZW5kb2JqCjIgMCBvYmoKPDwKL1R5cGUgL1BhZ2VzCi9LaWRzIFszIDAgUl0KL0NvdW50IDEKPD4KZW5kb2JqCjMgMCBvYmoKPDwKL1R5cGUgL1BhZ2UKL1BhcmVudCAyIDAgUgovTWVkaWFCb3ggWzAgMCA2MTIgNzkyXQovQ29udGVudHMgNCAwIFIKPj4KZW5kb2JqCjQgMCBvYmoKPDwKL0xlbmd0aCA0MAo+PgpzdHJlYW0KQlQKL0YxIDEyIFRmCjcyIDcyMCBUZAooRGF0YWJhc2UgTm9ybWFsaXphdGlvbikgVGoKRVQKZW5kc3RyZWFtCmVuZG9iago1IDAgb2JqCjw8Ci9UeXBlIC9Gb250Ci9TdWJ0eXBlIC9UeXBlMQovQmFzZUZvbnQgL0hlbHZldGljYQo+PgplbmRvYmoKeHJlZgowIDYKMDAwMDAwMDAwMCA2NTUzNSBmIAowMDAwMDAwMDA5IDAwMDAwIG4gCjAwMDAwMDAwNTggMDAwMDAgbiAKMDAwMDAwMDExNSAwMDAwMCBuIAowMDAwMDAwMjA3IDAwMDAwIG4gCjAwMDAwMDAyOTcgMDAwMDAgbiAKdHJhaWxlcgo8PAovU2l6ZSA2Ci9Sb290IDEgMCBSCj4+CnN0YXJ0eHJlZgozNjYKJSVFT0Y=",
    fileName := "database-normalization.pdf",
    description := Some("Understanding database normalization forms and their applications"),
    tags := Some(["database", "sql", "normalization"]))

  /** Seed note "3", uploaded 2024-01-13. */
  const SeedNote3: Note := Note(
    id := "3",
    title := "Object Oriented Programming Concepts",
    subject := "OOP",
    semester := "2",
    uploadDay := 19735,
    fileSize := "3.2 MB",
    fileType := Pdf,
    fileUrl := "data:application/pdf;base64,JVBERi0xLjQKJdPr6eEKMSAwIG9iago8PAovVHlwZSAvQ2F0YWxvZwovUGFnZXMgMiAwIFIKPj4KZW5kb2JqCjIgMCBvYmoKPDwKL1R5cGUgL1BhZ2VzCi9LaWRzIFszIDAgUl0KL0NvdW50IDEKPD4KZW5kb2JqCjMgMCBvYmoKPDwKL1R5cGUgL1BhZ2UKL1BhcmVudCAyIDAgUgovTWVkaWFCb3ggWzAgMCA2MTIgNzkyXQovQ29udGVudHMgNCAwIFIKPj4KZW5kb2JqCjQgMCBvYmoKPDwKL0xlbmd0aCA0Mgo+PgpzdHJlYW0KQlQKL0YxIDEyIFRmCjcyIDcyMCBUZAooT2JqZWN0IE9yaWVudGVkIFByb2dyYW1taW5nKSBUagpFVAplbmRzdHJlYW0KZW5kb2JqCjUgMCBvYmoKPDwKL1R5cGUgL0ZvbnQKL1N1YnR5cGUgL1R5cGUxCi9CYXNlRm9udCAvSGVsdmV0aWNhCj4+CmVuZG9iagp4cmVmCjAgNgowMDAwMDAwMDAwIDY1NTM1IGYgCjAwMDAwMDAwMDkgMDAwMDAgbiAKMDAwMDAwMDA1OCAwMDAwMCBuIAowMDAwMDAwMTE1IDAwMDAwIG4gCjAwMDAwMDAyMDcgMDAwMDAgbiAKMDAwMDAwMDI5OSAwMDAwMCBuIAp0cmFpbGVyCjw8Ci9TaXplIDYKL1Jvb3QgMSAwIFIKPj4Kc3RhcnR4cmVmCjM2OAolJUVPRg==",
    fileName := "oop-concepts.pdf",
    description := Some("Fundamental concepts of object-oriented programming including inheritance and polymorphism"),
    tags := Some(["oop", "programming", "java", "concepts"]))

  /** Seed note "4", uploaded 2024-01-12. */
  const SeedNote4: Note := Note(
    id := "4",
    title := "Advanced Algorithms",
    subject := "Algorithms",
    semester := "5",
    uploadDay := 19734,
    fileSize := "4.1 MB",
    fileType := Pdf,
    fileUrl := "data:application/pdf;base64,JVBERi0xLjQKJdPr6eEKMSAwIG9iago8PAovVHlwZSAvQ2F0YWxvZwovUGFnZXMgMiAwIFIKPj4KZW5kb2JqCjIgMCBvYmoKPDwKL1R5cGUgL1BhZ2VzCi9LaWRzIFszIDAgUl0KL0NvdW50IDEKPD4KZW5kb2JqCjMgMCBvYmoKPDwKL1R5cGUgL1BhZ2UKL1BhcmVudCAyIDAgUgovTWVkaWFCb3ggWzAgMCA2MTIgNzkyXQovQ29udGVudHMgNCAwIFIKPj4KZW5kb2JqCjQgMCBvYmoKPDwKL0xlbmd0aCAzNgo+PgpzdHJlYW0KQlQKL0YxIDEyIFRmCjcyIDcyMCBUZAooQWR2YW5jZWQgQWxnb3JpdGhtcykgVGoKRVQKZW5kc3RyZWFtCmVuZG9iago1IDAgb2JqCjw8Ci9UeXBlIC9Gb250Ci9TdWJ0eXBlIC9UeXBlMQovQmFzZUZvbnQgL0hlbHZldGljYQo+PgplbmRvYmoKeHJlZgowIDYKMDAwMDAwMDAwMCA2NTUzNSBmIAowMDAwMDAwMDA5IDAwMDAwIG4gCjAwMDAwMDAwNTggMDAwMDAgbiAKMDAwMDAwMDExNSAwMDAwMCBuIAowMDAwMDAwMjA3IDAwMDAwIG4gCjAwMDAwMDAyOTMgMDAwMDAgbiAKdHJhaWxlcgo8PAovU2l6ZSA2Ci9Sb290IDEgMCBSCj4+CnN0YXJ0eHJlZgozNjIKJSVFT0Y=",
    fileName := "advanced-algorithms.pdf",
    description := Some("Complex algorithmic concepts including dynamic programming and graph algorithms"),
    tags := Some(["algorithms", "dynamic-programming", "graphs", "advanced"]))

  /** The notes a first read of an absent note collection returns and stores. */
  const DefaultNotes: seq<Note> := [SeedNote1, SeedNote2, SeedNote3, SeedNote4]

  /** The notification a first read of an absent notification collection returns and stores; `today` is the current date as `YYYY-MM-DD`. */
  function WelcomeNotification(today: string): Notification {
    Notification(
      id := "1",
      title := "Welcome to EduNotes",
      message := "Your digital learning companion is ready! Access all your study materials in one place.",
      date := today,
      isRead := false,
      targetSemester := "all")
  }

  function DefaultNotifications(today: string): seq<Notification> {
    [WelcomeNotification(today)]
  }
}

=== FILE: entities.dfy ===
/** The five record shapes the portal persists. */
module Entities {
  import opened Wrappers

  datatype FileType = Pdf | Doc

  /**
   A study material. `semester` is the text the upload form stored ("1".."8");
   `uploadDay` is the upload date as a count of days since 1970-01-01, the
   day whose UTC midnight the stored ISO date denotes.
   */
  datatype Note = Note(
    id: string,
    title: string,
    subject: string,
    semester: string,
    uploadDay: int,
    fileSize: string,
    fileType: FileType,
    fileUrl: string,
    fileName: string,
    description: Option<string>,
    tags: Option<seq<string>>)

  datatype Notification = Notification(
    id: string,
    title: string,
    message: string,
    date: string,
    isRead: bool,
    targetSemester: string)

  /** A (note, student) pair with its own id; neither key is checked against its table. */
  datatype Bookmark = Bookmark(
    id: string,
    noteId: string,
    studentId: string,
    bookmarkedAt: string)

  datatype FeedbackKind = Bug | Suggestion | General

  datatype FeedbackStatus = Pending | Reviewed | Resolved

  datatype Feedback = Feedback(
    id: string,
    studentId: string,
    kind: FeedbackKind,
    title: string,
    message: string,
    status: FeedbackStatus,
    submittedAt: string)

  /** What a student submits: a feedback record before id, time stamp and status are added. */
  datatype FeedbackDraft = FeedbackDraft(
    studentId: string,
    kind: FeedbackKind,
    title: string,
    message: string)

  datatype StudentProfile = StudentProfile(
    studentId: string,
    currentSemester: int,
    name: Option<string>,
    course: Option<string>)
}

=== FILE: order.dfy ===
/**
 The default ordering of `Array.prototype.sort` on strings (character by
 character, a proper prefix first), duplicate removal through a `Set`, and an
 insertion sort that realises `sort()` on a list of distinct strings.
 */
module Order {

  /** `a` sorts strictly before `b`: a proper prefix first, and the empty string before everything else. */
  predicate Less(a: string, b: string)
    ensures a < b ==> Less(a, b)
    ensures Less(a, b) ==> |b| > 0
  {
    if |a| == 0 then |b| > 0
    else if |b| == 0 then false
    else if a[0] != b[0] then a[0] < b[0]
    else Less(a[1..], b[1..])
  }

  predicate LessEq(a: string, b: string) {
    a == b || Less(a, b)
  }

  lemma {:induction false} LessIrreflexive(a: string)
    ensures !Less(a, a)
  {
    if |a| > 0 {
      LessIrreflexive(a[1..]);
    }
  }

  lemma {:induction false} LessTransitive(a: string, b: string, c: string)
    requires Less(a, b) && Less(b, c)
    ensures Less(a, c)
  {
    if |a| > 0 && |b| > 0 && |c| > 0 && a[0] == b[0] && b[0] == c[0] {
      LessTransitive(a[1..], b[1..], c[1..]);
    }
  }

  /** Two different strings are always ordered one way or the other. */
  lemma {:induction false} LessTotal(a: string, b: string)
    requires a != b
    ensures Less(a, b) || Less(b, a)
  {
    if |a| > 0 && |b| > 0 && a[0] == b[0] {
      assert a == [a[0]] + a[1..];
      assert b == [b[0]] + b[1..];
      LessTotal(a[1..], b[1..]);
    }
  }

  lemma LessAsymmetric(a: string, b: string)
    requires Less(a, b)
    ensures !Less(b, a)
  {
    if Less(b, a) {
      LessTransitive(a, b, a);
      LessIrreflexive(a);
    }
  }

  /** Every pair of elements is in non-decreasing order. */
  predicate Sorted(s: seq<string>) {
    forall i, j :: 0 <= i < j < |s| ==> LessEq(s[i], s[j])
  }

  /** Every pair of elements is in increasing order: sorted and free of duplicates. */
  predicate StrictlySorted(s: seq<string>) {
    forall i, j :: 0 <= i < j < |s| ==> Less(s[i], s[j])
  }

  predicate Distinct<T(==)>(s: seq<T>) {
    forall i, j :: 0 <= i < j < |s| ==> s[i] != s[j]
  }

  /** `x` occurs in `s` before the first occurrence of `y`. */
  predicate FirstBefore<T(==)>(s: seq<T>, x: T, y: T) {
    exists k :: 0 <= k < |s| && s[k] == x && y !in s[..k]
  }

  /** The distinct elements of `s` in order of first occurrence (`[...new Set(s)]`). */
  function Dedup(s: seq<string>): (r: seq<string>)
    ensures Distinct(r)
    ensures forall x :: x in r <==> x in s
    ensures forall i, j :: 0 <= i < j < |r| ==> FirstBefore(s, r[i], r[j])
  {
    var r := DedupFrom(s, []);
    assert [] + r == r;
    r
  }

  /** `Dedup` with `seen` the elements already emitted. */
  function DedupFrom(s: seq<string>, seen: seq<string>): (r: seq<string>)
    requires Distinct(seen)
    ensures Distinct(seen + r)
    ensures forall x :: x in r <==> x in s && x !in seen
    ensures forall i, j :: 0 <= i < j < |r| ==> FirstBefore(s, r[i], r[j])
    decreases |s|
  {
    if |s| == 0 then []
    else if s[0] in seen then
      var rest := DedupFrom(s[1..], seen);
      forall i, j | 0 <= i < j < |rest|
        ensures FirstBefore(s, rest[i], rest[j])
      {
        assert rest[j] in rest;
        FirstBeforeCons(s, rest[i], rest[j]);
      }
      rest
    else
      var rest := DedupFrom(s[1..], seen + [s[0]]);
      assert seen + [s[0]] + rest == seen + ([s[0]] + rest);
      var r := [s[0]] + rest;
      forall i, j | 0 <= i < j < |r|
        ensures FirstBefore(s, r[i], r[j])
      {
        if i == 0 {
          assert s[0] == r[0] && s[..0] == [];
        } else {
          assert r[i] == rest[i - 1] && r[j] == rest[j - 1];
          assert FirstBefore(s[1..], rest[i - 1], rest[j - 1]);
          assert rest[j - 1] in rest;
          FirstBeforeCons(s, r[i], r[j]);
        }
      }
      r
  }

  /** An order of first occurrence in the tail carries over to `s` when `y` is not the head. */
  lemma FirstBeforeCons<T>(s: seq<T>, x: T, y: T)
    requires |s| > 0 && y != s[0]
    requires FirstBefore(s[1..], x, y)
    ensures FirstBefore(s, x, y)
  {
    var k :| 0 <= k < |s| - 1 && s[1..][k] == x && y !in s[1..][..k];
    assert s[..k + 1] == [s[0]] + s[1..][..k];
    assert s[k + 1] == x;
  }

  /** Puts `x` into the sorted `s` in front of the first element not below it. */
  function Insert(x: string, s: seq<string>): (r: seq<string>)
    requires Sorted(s)
    ensures Sorted(r)
    ensures multiset(r) == multiset(s) + multiset{x}
  {
    if |s| == 0 then [x]
    else if LessEq(x, s[0]) then
      InsertAtFront(x, s);
      [x] + s
    else
      var rest := Insert(x, s[1..]);
      InsertBehindHead(x, s, rest);
      [s[0]] + rest
  }

  lemma InsertAtFront(x: string, s: seq<string>)
    requires Sorted(s) && |s| > 0 && LessEq(x, s[0])
    ensures Sorted([x] + s)
  {
    forall j | 0 < j < |s|
      ensures LessEq(x, s[j])
    {
      if x != s[0] && s[0] != s[j] { LessTransitive(x, s[0], s[j]); }
    }
  }

  lemma InsertBehindHead(x: string, s: seq<string>, rest: seq<string>)
    requires Sorted(s) && |s| > 0 && !LessEq(x, s[0])
    requires Sorted(rest) && multiset(rest) == multiset(s[1..]) + multiset{x}
    ensures Sorted([s[0]] + rest)
    ensures multiset([s[0]] + rest) == multiset(s) + multiset{x}
  {
    assert Less(s[0], x) by { LessTotal(x, s[0]); }
    assert s == [s[0]] + s[1..];
    forall j | 0 <= j < |rest|
      ensures LessEq(s[0], rest[j])
    {
      var y := rest[j];
      assert y in multiset(rest);
      assert y == x || y in multiset(s[1..]);
      if y != x {
        var k :| 0 <= k < |s[1..]| && s[1..][k] == y;
        assert s[k + 1] == y;
      }
    }
  }

  /** `s.sort()`: the elements of `s` rearranged into non-decreasing order. */
  function Sort(s: seq<string>): (r: seq<string>)
    ensures Sorted(r)
    ensures multiset(r) == multiset(s)
  {
    if |s| == 0 then []
    else
      assert s == [s[0]] + s[1..];
      Insert(s[0], Sort(s[1..]))
  }

  /** A sorted arrangement of distinct strings is strictly sorted. */
  lemma SortedDistinctIsStrict(s: seq<string>)
    requires Sorted(s) && Distinct(s)
    ensures StrictlySorted(s)
  {
  }

  /** A permutation of a duplicate-free sequence is duplicate-free. */
  lemma {:induction false} PermutationKeepsDistinct<T>(a: seq<T>, b: seq<T>)
    requires multiset(a) == multiset(b)
    requires Distinct(a)
    ensures Distinct(b)
  {
    forall i, j | 0 <= i < j < |b|
      ensures b[i] != b[j]
    {
      if b[i] == b[j] {
        var x := b[i];
        assert multiset(b)[x] >= 2 by {
          assert b == b[..i] + [x] + b[i + 1..j] + [x] + b[j + 1..];
        }
        DistinctCountsOne(a, x);
        assert false;
      }
    }
  }

  lemma {:induction false} DistinctCountsOne<T>(a: seq<T>, x: T)
    requires Distinct(a)
    ensures multiset(a)[x] <= 1
    decreases |a|
  {
    if |a| > 0 {
      assert a == [a[0]] + a[1..];
      DistinctCountsOne(a[1..], x);
      if a[0] == x {
        assert x !in a[1..];
      }
    }
  }

  /** Two sequences with the same elements are both empty or both not. */
  lemma SameMembersSameEmptiness<T>(a: seq<T>, b: seq<T>)
    requires forall x :: x in a <==> x in b
    ensures |a| == 0 <==> |b| == 0
  {
    if |a| > 0 { assert a[0] in b; }
    if |b| > 0 { assert b[0] in a; }
  }

  /**
   A strictly sorted sequence is determined by its elements: two strictly
   sorted sequences with the same elements are equal.
   */
  lemma {:induction false} StrictlySortedUnique(a: seq<string>, b: seq<string>)
    requires StrictlySorted(a) && StrictlySorted(b)
    requires forall x :: x in a <==> x in b
    ensures a == b
    decreases |a|
  {
    SameMembersSameEmptiness(a, b);
    if |a| > 0 {
      // Both heads are the least element of the common set.
      if a[0] != b[0] {
        assert a[0] in b && b[0] in a;
        var i :| 0 <= i < |b| && b[i] == a[0];
        var j :| 0 <= j < |a| && a[j] == b[0];
        assert i > 0 && j > 0;
        assert Less(b[0], a[0]) && Less(a[0], b[0]);
        LessAsymmetric(a[0], b[0]);
      }
      forall x
        ensures x in a[1..] <==> x in b[1..]
      {
        if x in a[1..] {
          var k :| 1 <= k < |a| && a[k] == x;
          assert Less(a[0], x);
          LessIrreflexive(x);
          assert x in b;
        }
        if x in b[1..] {
          var k :| 1 <= k < |b| && b[k] == x;
          assert Less(b[0], x);
          LessIrreflexive(x);
          assert x in a;
        }
      }
      StrictlySortedUnique(a[1..], b[1..]);
    }
  }
}

=== FILE: seqs.dfy ===
/**
 Order-preserving filtering and the subsequence relation. Every query of the
 note store is a chain of `Array.prototype.filter` calls; this module states
 once what such a chain may and may not do to its input.
 */
module Seqs {
  import opened Wrappers

  /** `a` is obtained from `b` by deleting elements, keeping the rest in order. */
  predicate IsSubseq<T(==)>(a: seq<T>, b: seq<T>)
    decreases |b|
  {
    if |a| == 0 then true
    else if |b| == 0 then false
    else if a[0] == b[0] then IsSubseq(a[1..], b[1..])
    else IsSubseq(a, b[1..])
  }

  /** The elements of `s` that satisfy `keep`, in the order they occur in `s`. */
  function Filter<T(!new)>(s: seq<T>, keep: T -> bool): (r: seq<T>)
    ensures |r| <= |s|
    ensures forall x :: x in r <==> x in s && keep(x)
  {
    if |s| == 0 then [] else if keep(s[0]) then [s[0]] + Filter(s[1..], keep) else Filter(s[1..], keep)
  }

  /** The position of the first element satisfying `p` (`findIndex`, with `None` for -1). */
  function FindIndex<T>(s: seq<T>, p: T -> bool): (r: Option<nat>)
    ensures r.Some? ==> r.value < |s| && p(s[r.value])
    ensures r.Some? ==> forall j :: 0 <= j < r.value ==> !p(s[j])
    ensures r.None? ==> forall j :: 0 <= j < |s| ==> !p(s[j])
  {
    if |s| == 0 then None
    else if p(s[0]) then Some(0)
    else match FindIndex(s[1..], p)
      case None => None
      case Some(k) => Some(k + 1)
  }

  /** The first `n` elements of `s`, or all of them when there are fewer (`slice(0, n)`). */
  function Take<T>(s: seq<T>, n: nat): (r: seq<T>)
    ensures |r| == if n < |s| then n else |s|
    ensures r <= s
  {
    if n < |s| then s[..n] else s
  }

  /** `FindIndex` returns `i` when `i` is the first position satisfying `p`. */
  lemma {:induction false} FindIndexFirst<T>(s: seq<T>, p: T -> bool, i: nat)
    requires i < |s| && p(s[i])
    requires forall j :: 0 <= j < i ==> !p(s[j])
    ensures FindIndex(s, p) == Some(i)
  {
    match FindIndex(s, p)
    case None =>
    case Some(k) =>
      if k < i { } else if k > i { }
  }

  /**
   Two sequences that agree on `p` over their common length, the longer one
   adding only positions where `p` fails, give the same `FindIndex`.
   */
  lemma {:induction false} FindIndexAgree<T>(a: seq<T>, b: seq<T>, p: T -> bool)
    requires |a| <= |b| <= |a| + 1
    requires forall j :: 0 <= j < |a| ==> p(b[j]) == p(a[j])
    requires |b| > |a| ==> !p(b[|a|])
    ensures FindIndex(b, p) == FindIndex(a, p)
  {
    match FindIndex(a, p)
    case None =>
      assert forall j :: 0 <= j < |b| ==> !p(b[j]) by {
        forall j | 0 <= j < |b|
          ensures !p(b[j])
        {
          if j < |a| { assert p(b[j]) == p(a[j]); }
        }
      }
    case Some(k) =>
      FindIndexFirst(b, p, k);
  }

  /** Every sequence is a subsequence of itself. */
  lemma {:induction false} SubseqRefl<T>(s: seq<T>)
    ensures IsSubseq(s, s)
    decreases |s|
  {
    if |s| > 0 {
      SubseqRefl(s[1..]);
    }
  }

  /** A subsequence stays one when the super-sequence grows at the front. */
  lemma {:induction false} SubseqCons<T>(a: seq<T>, b: seq<T>, x: T)
    requires IsSubseq(a, b)
    ensures IsSubseq(a, [x] + b)
    decreases |b|, 1
  {
    if |a| > 0 && a[0] == x {
      SubseqTail(a, b);
      assert ([x] + b)[1..] == b;
    } else if |a| > 0 {
      assert ([x] + b)[1..] == b;
    }
  }

  /** Dropping the head of a subsequence keeps it a subsequence. */
  lemma {:induction false} SubseqTail<T>(a: seq<T>, b: seq<T>)
    requires |a| > 0
    requires IsSubseq(a, b)
    ensures IsSubseq(a[1..], b)
    decreases |b|, 0
  {
    assert |b| > 0;
    if a[0] == b[0] {
      SubseqCons(a[1..], b[1..], b[0]);
      assert [b[0]] + b[1..] == b;
    } else {
      SubseqTail(a, b[1..]);
      SubseqCons(a[1..], b[1..], b[0]);
      assert [b[0]] + b[1..] == b;
    }
  }

  /** The subsequence relation is transitive. */
  lemma {:induction false} SubseqTrans<T>(a: seq<T>, b: seq<T>, c: seq<T>)
    requires IsSubseq(a, b) && IsSubseq(b, c)
    ensures IsSubseq(a, c)
    decreases |c|
  {
    if |a| == 0 {
    } else {
      assert |b| > 0 && |c| > 0;
      if b[0] == c[0] {
        if a[0] == b[0] {
          SubseqTrans(a[1..], b[1..], c[1..]);
        } else {
          SubseqTrans(a, b[1..], c[1..]);
        }
      } else {
        SubseqTrans(a, b, c[1..]);
        if a[0] == c[0] {
          SubseqTail(a, c[1..]);
        }
      }
    }
  }

  /** A prefix is a subsequence. */
  lemma {:induction false} PrefixIsSubseq<T>(a: seq<T>, b: seq<T>)
    requires a <= b
    ensures IsSubseq(a, b)
    decreases |a|
  {
    if |a| > 0 {
      PrefixIsSubseq(a[1..], b[1..]);
    }
  }

  /** A filter result is an ordered subsequence of its input. */
  lemma {:induction false} FilterIsSubseq<T(!new)>(s: seq<T>, keep: T -> bool)
    ensures IsSubseq(Filter(s, keep), s)
    decreases |s|
  {
    if |s| > 0 {
      FilterIsSubseq(s[1..], keep);
      if !keep(s[0]) {
        SubseqCons(Filter(s[1..], keep), s[1..], s[0]);
        assert [s[0]] + s[1..] == s;
      }
    }
  }

  /** A kept value occurs in the result exactly as often as in the input; a dropped one not at all. */
  lemma {:induction false} FilterMultiplicity<T(!new)>(s: seq<T>, keep: T -> bool)
    ensures forall x :: multiset(Filter(s, keep))[x] == if keep(x) then multiset(s)[x] else 0
    decreases |s|
  {
    if |s| > 0 {
      FilterMultiplicity(s[1..], keep);
      var rest := Filter(s[1..], keep);
      assert s == [s[0]] + s[1..];
      assert multiset(s) == multiset{s[0]} + multiset(s[1..]);
      if keep(s[0]) {
        assert multiset([s[0]] + rest) == multiset{s[0]} + multiset(rest);
      }
    }
  }

  /** A filter that keeps every element returns its input unchanged. */
  lemma {:induction false} FilterAll<T(!new)>(s: seq<T>, keep: T -> bool)
    requires forall i :: 0 <= i < |s| ==> keep(s[i])
    ensures Filter(s, keep) == s
    decreases |s|
  {
    if |s| > 0 {
      FilterAll(s[1..], keep);
      assert [s[0]] + s[1..] == s;
    }
  }

  /** A filter that keeps no element returns the empty sequence. */
  lemma {:induction false} FilterNone<T(!new)>(s: seq<T>, keep: T -> bool)
    requires forall i :: 0 <= i < |s| ==> !keep(s[i])
    ensures Filter(s, keep) == []
    decreases |s|
  {
    if |s| > 0 {
      FilterNone(s[1..], keep);
    }
  }

  /** Filtering twice with the same predicate is filtering once. */
  lemma {:induction false} FilterIdempotent<T(!new)>(s: seq<T>, keep: T -> bool)
    ensures Filter(Filter(s, keep), keep) == Filter(s, keep)
  {
    var r := Filter(s, keep);
    forall i | 0 <= i < |r|
      ensures keep(r[i])
    {
      assert r[i] in r;
    }
    FilterAll(r, keep);
  }

  /** Filtering distributes over concatenation. */
  lemma {:induction false} FilterAppend<T(!new)>(a: seq<T>, b: seq<T>, keep: T -> bool)
    ensures Filter(a + b, keep) == Filter(a, keep) + Filter(b, keep)
    decreases |a|
  {
    if |a| == 0 {
      assert a + b == b;
    } else {
      assert (a + b)[1..] == a[1..] + b;
      FilterAppend(a[1..], b, keep);
    }
  }
}

=== FILE: storage.dfy ===
/**
 The `AppStorage` repository: five collections kept as whole lists, each
 operation a read of one or two lists followed, for a mutation, by a write of
 the complete new list.
 */
module Storage {
  import opened Wrappers
  import opened Entities
  import opened Seqs
  import opened Text
  import Order
  import Defaults

  /** Milliseconds in a day: the step `setDate(getDate() - days)` moves the clock back by, per day. */
  const MsPerDay: int := 86_400_000

  /** The window `getRecentNotes` uses when no `days` argument is given. */
  const DefaultRecentDays: int := 7

  /** The most notes `getRecentNotes` returns. */
  const RecentLimit: nat := 10

  /**
   The persisted state. A `None` note or notification list is a key that was
   never written; an absent bookmark, feedback or profile key reads as the
   empty list and is never written back, so those are plain sequences.
   */
  datatype Store = Store(
    notes: Option<seq<Note>>,
    notifications: Option<seq<Notification>>,
    bookmarks: seq<Bookmark>,
    feedback: seq<Feedback>,
    profiles: seq<StudentProfile>)

  /** A browser profile that has never run the portal. */
  const EmptyStore: Store := Store(None, None, [], [], [])

  // ===========================================================================
  // Notes
  // ===========================================================================

  /**
   `getNotes`: the stored list; when the key is absent, the four sample notes,
   which are also written so that the next read finds them. The second
   component is the store after the call.
   */
  function GetNotes(st: Store): (r: (seq<Note>, Store))
    ensures r.1.notes == Some(r.0)
    ensures st.notes.Some? ==> r == (st.notes.value, st)
    ensures st.notes.None? ==> r.0 == Defaults.DefaultNotes
    ensures r.1 == st.(notes := r.1.notes)
  {
    match st.notes
    case Some(ns) => (ns, st)
    case None => (Defaults.DefaultNotes, st.(notes := Some(Defaults.DefaultNotes)))
  }

  /** The list every note query starts from: what `getNotes` returns. */
  function Notes(st: Store): seq<Note> {
    GetNotes(st).0
  }

  /** `addNote`: the new note goes to the front of the list. */
  function AddNote(st: Store, n: Note): (r: Store)
    ensures Notes(r) == [n] + Notes(st)
    ensures r.notes.Some?
    ensures r == st.(notes := r.notes)
  {
    st.(notes := Some([n] + Notes(st)))
  }

  /** `notes.filter(note => note.id !== id)`: every note carrying `id` is dropped; the others keep their order. */
  function WithoutId(ns: seq<Note>, id: string): (r: seq<Note>)
    ensures forall n :: n in r <==> n in ns && n.id != id
    ensures forall n :: multiset(r)[n] == if n.id != id then multiset(ns)[n] else 0
    ensures IsSubseq(r, ns)
  {
    FilterIsSubseq(ns, (n: Note) => n.id != id);
    FilterMultiplicity(ns, (n: Note) => n.id != id);
    Filter(ns, (n: Note) => n.id != id)
  }

  /** `deleteNote`: the note list without the notes carrying `id`. */
  function DeleteNote(st: Store, id: string): (r: Store)
    ensures r.notes == Some(WithoutId(Notes(st), id))
    ensures r == st.(notes := r.notes)
  {
    st.(notes := Some(WithoutId(Notes(st), id)))
  }

  /**
   `parseInt(note.semester) <= currentSemester`: a note whose semester does not
   parse (`NaN`) is visible to no one.
   */
  predicate CanAccess(n: Note, currentSemester: int)
    ensures CanAccess(n, currentSemester) ==> exists i :: 0 <= i < |n.semester| && IsDigit(n.semester[i], 10)
  {
    var v := ParseInt(n.semester);
    v.Some? && v.value <= currentSemester
  }

  /** `allNotes.filter(...)` in `getAccessibleNotes`: the notes of the current and earlier semesters, in order. */
  function Accessible(ns: seq<Note>, currentSemester: int): (r: seq<Note>)
    ensures forall n :: n in r <==> n in ns && CanAccess(n, currentSemester)
    ensures forall n :: multiset(r)[n] == if CanAccess(n, currentSemester) then multiset(ns)[n] else 0
    ensures IsSubseq(r, ns)
  {
    FilterIsSubseq(ns, (n: Note) => CanAccess(n, currentSemester));
    FilterMultiplicity(ns, (n: Note) => CanAccess(n, currentSemester));
    Filter(ns, (n: Note) => CanAccess(n, currentSemester))
  }

  /** `getAccessibleNotes`: the stored notes a student at `currentSemester` may see. */
  function GetAccessibleNotes(st: Store, currentSemester: int): (r: seq<Note>)
    ensures forall n :: n in r <==> n in Notes(st) && CanAccess(n, currentSemester)
    ensures forall n :: multiset(r)[n] == if CanAccess(n, currentSemester) then multiset(Notes(st))[n] else 0
    ensures IsSubseq(r, Notes(st))
  {
    Accessible(Notes(st), currentSemester)
  }

  // ===========================================================================
  // Search
  // ===========================================================================

  /** A JavaScript value used as a condition: `undefined` and `0` are false. */
  predicate SemesterGiven(currentSemester: Option<int>) {
    currentSemester.Some? && currentSemester.value != 0
  }

  /** A category filter applies unless it is missing, empty or `"all"`. */
  predicate FilterActive(f: Option<string>) {
    f.Some? && f.value != "" && f.value != "all"
  }

  /** The note has `term` inside its title, subject, description or one of its tags, ignoring case. */
  predicate MatchesText(n: Note, term: string) {
    || Contains(ToLower(n.title), term)
    || Contains(ToLower(n.subject), term)
    || (n.description.Some? && Contains(ToLower(n.description.value), term))
    || (n.tags.Some? && exists i :: 0 <= i < |n.tags.value| && Contains(ToLower(n.tags.value[i]), term))
  }

  /** The notes a search starts from: the visible ones for a student, all of them otherwise. */
  function SearchBase(st: Store, currentSemester: Option<int>): seq<Note> {
    if SemesterGiven(currentSemester) then GetAccessibleNotes(st, currentSemester.value)
    else Notes(st)
  }

  /** The notes whose text matches `term`, in order. */
  function FilterByText(ns: seq<Note>, term: string): (r: seq<Note>)
    ensures forall n :: n in r <==> n in ns && MatchesText(n, term)
    ensures forall n :: multiset(r)[n] == if MatchesText(n, term) then multiset(ns)[n] else 0
    ensures IsSubseq(r, ns)
  {
    FilterIsSubseq(ns, (n: Note) => MatchesText(n, term));
    FilterMultiplicity(ns, (n: Note) => MatchesText(n, term));
    Filter(ns, (n: Note) => MatchesText(n, term))
  }

  /**
   The notes whose `key` field is exactly `value`, in order: the semester
   filter (`note.semester === semester`) and the subject filter
   (`note.subject === subject`) of `searchNotes`.
   */
  function FilterExact(ns: seq<Note>, key: Note -> string, value: string): (r: seq<Note>)
    ensures forall n :: n in r <==> n in ns && key(n) == value
    ensures forall n :: multiset(r)[n] == if key(n) == value then multiset(ns)[n] else 0
    ensures IsSubseq(r, ns)
  {
    FilterIsSubseq(ns, (n: Note) => key(n) == value);
    FilterMultiplicity(ns, (n: Note) => key(n) == value);
    Filter(ns, (n: Note) => key(n) == value)
  }

  /** Every condition a search result satisfies, each applied only when it is switched on. */
  predicate PassesSearch(n: Note, query: string, semester: Option<string>, subject: Option<string>) {
    && (query != "" ==> MatchesText(n, ToLower(query)))
    && (FilterActive(semester) ==> n.semester == semester.value)
    && (FilterActive(subject) ==> n.subject == subject.value)
  }

  /**
   The filters of `searchNotes` over a base list: the text filter when `query`
   is non-empty, then the exact semester and subject filters when active.
   */
  function Search(base: seq<Note>, query: string, semester: Option<string>, subject: Option<string>): (r: seq<Note>)
    ensures IsSubseq(r, base)
    ensures forall n :: n in r <==> n in base && PassesSearch(n, query, semester, subject)
    ensures forall n :: multiset(r)[n] == if PassesSearch(n, query, semester, subject) then multiset(base)[n] else 0
    ensures query == "" && !FilterActive(semester) && !FilterActive(subject) ==> r == base
  {
    var byText := if query != "" then FilterByText(base, ToLower(query)) else base;
    var bySemester :=
      if FilterActive(semester) then FilterExact(byText, (n: Note) => n.semester, semester.value) else byText;
    var bySubject :=
      if FilterActive(subject) then FilterExact(bySemester, (n: Note) => n.subject, subject.value) else bySemester;
    SubseqRefl(base);
    SubseqRefl(byText);
    SubseqRefl(bySemester);
    SubseqTrans(bySemester, byText, base);
    SubseqTrans(bySubject, bySemester, base);
    bySubject
  }

  /**
   `searchNotes(query, semester, subject, currentSemester)`: the filters over
   the visible notes when `currentSemester` is truthy, over all notes
   otherwise. The result never leaves the stored list and, for a student,
   never shows a note of a later semester.
   */
  function SearchNotes(st: Store, query: string, semester: Option<string>, subject: Option<string>,
                       currentSemester: Option<int>): (r: seq<Note>)
    ensures IsSubseq(r, Notes(st))
    ensures forall n :: n in r <==> n in SearchBase(st, currentSemester) && PassesSearch(n, query, semester, subject)
    ensures forall n ::
      multiset(r)[n] == if PassesSearch(n, query, semester, subject) then multiset(SearchBase(st, currentSemester))[n] else 0
    ensures SemesterGiven(currentSemester) ==>
      forall n :: n in r ==> n in Notes(st) && CanAccess(n, currentSemester.value)
  {
    var base := SearchBase(st, currentSemester);
    var r := Search(base, query, semester, subject);
    if SemesterGiven(currentSemester) then
      SubseqTrans(r, base, Notes(st));
      r
    else
      r
  }

  // ===========================================================================
  // Notifications
  // ===========================================================================

  /**
   `getNotifications`: the stored list; when the key is absent, the welcome
   notification dated `today`, which is also written.
   */
  function GetNotifications(st: Store, today: string): (r: (seq<Notification>, Store))
    ensures r.1.notifications == Some(r.0)
    ensures st.notifications.Some? ==> r == (st.notifications.value, st)
    ensures st.notifications.None? ==> r.0 == Defaults.DefaultNotifications(today)
    ensures r.1 == st.(notifications := r.1.notifications)
  {
    match st.notifications
    case Some(ns) => (ns, st)
    case None =>
      var seed := Defaults.DefaultNotifications(today);
      (seed, st.(notifications := Some(seed)))
  }

  function Notifications(st: Store, today: string): seq<Notification> {
    GetNotifications(st, today).0
  }

  /** `addNotification`: the new notification goes to the front of the list. */
  function AddNotification(st: Store, n: Notification, today: string): (r: Store)
    ensures Notifications(r, today) == [n] + Notifications(st, today)
    ensures r.notifications.Some?
    ensures r == st.(notifications := r.notifications)
  {
    st.(notifications := Some([n] + Notifications(st, today)))
  }

  /** Every notification with `id` marked read; all others, and the order, as they were. */
  function MarkRead(ns: seq<Notification>, id: string): (r: seq<Notification>)
    ensures |r| == |ns|
    ensures forall i :: 0 <= i < |ns| && ns[i].id == id ==> r[i] == ns[i].(isRead := true)
    ensures forall i :: 0 <= i < |ns| && ns[i].id != id ==> r[i] == ns[i]
  {
    if |ns| == 0 then []
    else
      var head := if ns[0].id == id then ns[0].(isRead := true) else ns[0];
      [head] + MarkRead(ns[1..], id)
  }

  /** `markNotificationAsRead`. */
  function MarkNotificationAsRead(st: Store, id: string, today: string): (r: Store)
    ensures Notifications(r, today) == MarkRead(Notifications(st, today), id)
    ensures r.notifications.Some?
    ensures r == st.(notifications := r.notifications)
  {
    st.(notifications := Some(MarkRead(Notifications(st, today), id)))
  }

  /** How many notifications are still unread: the badge count on the dashboard. */
  function UnreadCount(ns: seq<Notification>): (r: nat)
    ensures r <= |ns|
    ensures r == 0 <==> forall i :: 0 <= i < |ns| ==> ns[i].isRead
    ensures r == |ns| <==> forall i :: 0 <= i < |ns| ==> !ns[i].isRead
  {
    if |ns| == 0 then 0 else (if ns[0].isRead then 0 else 1) + UnreadCount(ns[1..])
  }

  /** How many unread notifications carry `id`. */
  function UnreadWithId(ns: seq<Notification>, id: string): nat {
    if |ns| == 0 then 0
    else (if !ns[0].isRead && ns[0].id == id then 1 else 0) + UnreadWithId(ns[1..], id)
  }

  // ===========================================================================
  // Bookmarks
  // ===========================================================================

  predicate IsPair(b: Bookmark, noteId: string, studentId: string) {
    b.noteId == noteId && b.studentId == studentId
  }

  /** `isBookmarked`: some bookmark record holds the pair. */
  predicate IsBookmarked(st: Store, noteId: string, studentId: string)
    ensures IsBookmarked(st, noteId, studentId) <==>
      exists b :: b in BookmarksOf(st.bookmarks, studentId) && b.noteId == noteId
  {
    exists i :: 0 <= i < |st.bookmarks| && IsPair(st.bookmarks[i], noteId, studentId)
  }

  /** `addBookmark`: a new record with the given id and time stamp is appended, duplicate or not. */
  function AddBookmark(st: Store, noteId: string, studentId: string, id: string, bookmarkedAt: string): (r: Store)
    ensures IsBookmarked(r, noteId, studentId)
    ensures |r.bookmarks| == |st.bookmarks| + 1
    ensures r.bookmarks[..|st.bookmarks|] == st.bookmarks
    ensures r.bookmarks[|st.bookmarks|] == Bookmark(id, noteId, studentId, bookmarkedAt)
    ensures forall n, s :: IsBookmarked(r, n, s) <==> IsBookmarked(st, n, s) || (n == noteId && s == studentId)
    ensures r == st.(bookmarks := r.bookmarks)
  {
    var b := Bookmark(id, noteId, studentId, bookmarkedAt);
    var r := st.(bookmarks := st.bookmarks + [b]);
    assert r.bookmarks[|st.bookmarks|] == b;
    forall n, s | IsBookmarked(r, n, s)
      ensures IsBookmarked(st, n, s) || (n == noteId && s == studentId)
    {
      var i :| 0 <= i < |r.bookmarks| && IsPair(r.bookmarks[i], n, s);
      if i < |st.bookmarks| {
        assert st.bookmarks[i] == r.bookmarks[i];
      }
    }
    forall n, s | IsBookmarked(st, n, s)
      ensures IsBookmarked(r, n, s)
    {
      var i :| 0 <= i < |st.bookmarks| && IsPair(st.bookmarks[i], n, s);
      assert r.bookmarks[i] == st.bookmarks[i];
    }
    r
  }

  /** `removeBookmark`: every record of the pair goes; every other record stays, in order. */
  function RemoveBookmark(st: Store, noteId: string, studentId: string): (r: Store)
    ensures !IsBookmarked(r, noteId, studentId)
    ensures forall b :: b in r.bookmarks <==> b in st.bookmarks && !IsPair(b, noteId, studentId)
    ensures forall b :: multiset(r.bookmarks)[b] == if IsPair(b, noteId, studentId) then 0 else multiset(st.bookmarks)[b]
    ensures IsSubseq(r.bookmarks, st.bookmarks)
    ensures forall n, s :: !(n == noteId && s == studentId) ==>
      (IsBookmarked(r, n, s) <==> IsBookmarked(st, n, s))
    ensures r == st.(bookmarks := r.bookmarks)
  {
    var keep := (b: Bookmark) => !IsPair(b, noteId, studentId);
    var r := st.(bookmarks := Filter(st.bookmarks, keep));
    FilterIsSubseq(st.bookmarks, keep);
    FilterMultiplicity(st.bookmarks, keep);
    assert forall i :: 0 <= i < |r.bookmarks| ==> r.bookmarks[i] in st.bookmarks && keep(r.bookmarks[i]);
    forall n, s | !(n == noteId && s == studentId) && IsBookmarked(st, n, s)
      ensures IsBookmarked(r, n, s)
    {
      var i :| 0 <= i < |st.bookmarks| && IsPair(st.bookmarks[i], n, s);
      var b := st.bookmarks[i];
      assert b in r.bookmarks;
      var j :| 0 <= j < |r.bookmarks| && r.bookmarks[j] == b;
    }
    r
  }

  /** `notes.find(note => note.id === id)`. */
  function FindNote(ns: seq<Note>, id: string): (r: Option<Note>)
    ensures r.Some? ==> r.value in ns && r.value.id == id
    ensures r.None? <==> forall i :: 0 <= i < |ns| ==> ns[i].id != id
    ensures r.Some? ==> exists i :: 0 <= i < |ns| && ns[i] == r.value && forall j :: 0 <= j < i ==> ns[j].id != id
  {
    match FindIndex(ns, (n: Note) => n.id == id)
    case None => None
    case Some(i) => Some(ns[i])
  }

  /** The bookmark refers to a note that is still stored. */
  predicate Resolves(ns: seq<Note>, b: Bookmark) {
    FindNote(ns, b.noteId).Some?
  }

  /** The bookmarks that refer to a stored note, in order. */
  function Resolving(bs: seq<Bookmark>, ns: seq<Note>): seq<Bookmark> {
    Filter(bs, (b: Bookmark) => Resolves(ns, b))
  }

  /** Each bookmark replaced by the note it refers to; a dangling bookmark contributes nothing. */
  function Join(bs: seq<Bookmark>, ns: seq<Note>): seq<Note> {
    if |bs| == 0 then []
    else
      match FindNote(ns, bs[0].noteId)
      case None => Join(bs[1..], ns)
      case Some(n) => [n] + Join(bs[1..], ns)
  }

  /**
   The `i`-th note of the join is the note of the `i`-th resolving bookmark, so
   a note bookmarked twice appears twice.
   */
  function JoinNotes(bs: seq<Bookmark>, ns: seq<Note>): (r: seq<Note>)
    ensures |r| == |Resolving(bs, ns)|
    ensures forall i :: 0 <= i < |r| ==> FindNote(ns, Resolving(bs, ns)[i].noteId) == Some(r[i])
    ensures forall b :: b in bs && Resolves(ns, b) ==> FindNote(ns, b.noteId).value in r
    ensures forall n :: n in r ==> n in ns && exists b :: b in bs && b.noteId == n.id
  {
    JoinPositions(bs, ns);
    JoinMembers(bs, ns);
    Join(bs, ns)
  }

  /** The `i`-th note of `Join` is the note of the `i`-th resolving bookmark. */
  lemma {:induction false} JoinPositions(bs: seq<Bookmark>, ns: seq<Note>)
    ensures |Join(bs, ns)| == |Resolving(bs, ns)|
    ensures forall i :: 0 <= i < |Join(bs, ns)| ==> FindNote(ns, Resolving(bs, ns)[i].noteId) == Some(Join(bs, ns)[i])
  {
    if |bs| > 0 {
      JoinPositions(bs[1..], ns);
      var rest := Join(bs[1..], ns);
      assert bs == [bs[0]] + bs[1..];
      if Resolves(ns, bs[0]) {
        assert Resolving(bs, ns) == [bs[0]] + Resolving(bs[1..], ns);
        assert Join(bs, ns) == [FindNote(ns, bs[0].noteId).value] + rest;
      } else {
        assert Resolving(bs, ns) == Resolving(bs[1..], ns);
        assert Join(bs, ns) == rest;
      }
    }
  }

  /** Every resolving bookmark contributes its note to `Join`, and `Join` holds nothing else. */
  lemma {:induction false} JoinMembers(bs: seq<Bookmark>, ns: seq<Note>)
    ensures forall b :: b in bs && Resolves(ns, b) ==> FindNote(ns, b.noteId).value in Join(bs, ns)
    ensures forall n :: n in Join(bs, ns) ==> n in ns && exists b :: b in bs && b.noteId == n.id
  {
    if |bs| > 0 {
      JoinMembers(bs[1..], ns);
      assert bs == [bs[0]] + bs[1..];
      var rest := Join(bs[1..], ns);
      if Resolves(ns, bs[0]) {
        assert Join(bs, ns) == [FindNote(ns, bs[0].noteId).value] + rest;
      } else {
        assert Join(bs, ns) == rest;
      }
    }
  }

  /** The bookmark records of one student, in stored order. */
  function BookmarksOf(bs: seq<Bookmark>, studentId: string): seq<Bookmark> {
    Filter(bs, (b: Bookmark) => b.studentId == studentId)
  }

  /** The join of `getBookmarkedNotes`: the student's bookmarks, each replaced by its note when there is one. */
  function BookmarkedNotes(bs: seq<Bookmark>, ns: seq<Note>, studentId: string): (r: seq<Note>)
    ensures |r| == |Resolving(BookmarksOf(bs, studentId), ns)| <= |BookmarksOf(bs, studentId)|
    ensures forall i :: 0 <= i < |r| ==>
      FindNote(ns, Resolving(BookmarksOf(bs, studentId), ns)[i].noteId) == Some(r[i])
    ensures forall b :: b in bs && b.studentId == studentId && Resolves(ns, b) ==> FindNote(ns, b.noteId).value in r
    ensures forall n :: n in r ==> n in ns
    ensures forall n :: n in r ==> exists b :: b in bs && b.studentId == studentId && b.noteId == n.id
  {
    var mine := BookmarksOf(bs, studentId);
    var r := JoinNotes(mine, ns);
    assert forall b :: b in bs && b.studentId == studentId ==> b in mine;
    assert forall b :: b in mine ==> b in bs && b.studentId == studentId;
    r
  }

  /** `getBookmarkedNotes`: the student's bookmarks joined against the stored notes. */
  function GetBookmarkedNotes(st: Store, studentId: string): (r: seq<Note>)
    ensures |r| == |Resolving(BookmarksOf(st.bookmarks, studentId), Notes(st))|
    ensures forall i :: 0 <= i < |r| ==>
      FindNote(Notes(st), Resolving(BookmarksOf(st.bookmarks, studentId), Notes(st))[i].noteId) == Some(r[i])
    ensures forall n :: n in r ==> n in Notes(st)
    ensures forall n :: n in r ==> exists b :: b in st.bookmarks && b.studentId == studentId && b.noteId == n.id
    ensures forall b :: b in st.bookmarks && b.studentId == studentId && Resolves(Notes(st), b) ==>
      FindNote(Notes(st), b.noteId).value in r
  {
    BookmarkedNotes(st.bookmarks, Notes(st), studentId)
  }

  // ===========================================================================
  // Feedback
  // ===========================================================================

  /** `addFeedback`: the draft, completed with id, time stamp and status `pending`, goes to the front. */
  function AddFeedback(st: Store, draft: FeedbackDraft, id: string, submittedAt: string): (r: Store)
    ensures |r.feedback| == |st.feedback| + 1 && r.feedback[1..] == st.feedback
    ensures r.feedback[0].status == Pending
    ensures r.feedback[0].id == id && r.feedback[0].submittedAt == submittedAt
    ensures r.feedback[0].studentId == draft.studentId && r.feedback[0].kind == draft.kind
    ensures r.feedback[0].title == draft.title && r.feedback[0].message == draft.message
    ensures r == st.(feedback := r.feedback)
  {
    var f := Feedback(id, draft.studentId, draft.kind, draft.title, draft.message, Pending, submittedAt);
    st.(feedback := [f] + st.feedback)
  }

  /** How many feedback records are still pending: the admin page's pending count. */
  function PendingCount(fs: seq<Feedback>): (r: nat)
    ensures r == |Filter(fs, (f: Feedback) => f.status == Pending)|
    ensures r <= |fs|
    ensures r == 0 <==> forall i :: 0 <= i < |fs| ==> fs[i].status != Pending
  {
    if |fs| == 0 then 0 else (if fs[0].status == Pending then 1 else 0) + PendingCount(fs[1..])
  }

  // ===========================================================================
  // Student profiles
  // ===========================================================================

  /** `getStudentProfile`: the first profile with the id, or `null`. */
  function GetStudentProfile(st: Store, studentId: string): (r: Option<StudentProfile>)
    ensures r.Some? ==> r.value in st.profiles && r.value.studentId == studentId
    ensures r.None? <==> forall i :: 0 <= i < |st.profiles| ==> st.profiles[i].studentId != studentId
    ensures r.Some? ==>
      exists i :: 0 <= i < |st.profiles| && st.profiles[i] == r.value && forall j :: 0 <= j < i ==> st.profiles[j].studentId != studentId
  {
    match ProfileIndex(st.profiles, studentId)
    case None => None
    case Some(i) => Some(st.profiles[i])
  }

  /** `profiles.findIndex(p => p.studentId === studentId)`. */
  function ProfileIndex(ps: seq<StudentProfile>, studentId: string): Option<nat> {
    FindIndex(ps, (p: StudentProfile) => p.studentId == studentId)
  }

  /** `updateStudentProfile`: replace the first profile with the same id, or append. */
  function UpdateStudentProfile(st: Store, profile: StudentProfile): (r: Store)
    ensures GetStudentProfile(r, profile.studentId) == Some(profile)
    ensures forall id :: id != profile.studentId ==> GetStudentProfile(r, id) == GetStudentProfile(st, id)
    ensures |r.profiles| == |st.profiles| + (if GetStudentProfile(st, profile.studentId).None? then 1 else 0)
    ensures forall j :: 0 <= j < |st.profiles| && ProfileIndex(st.profiles, profile.studentId) != Some(j) ==>
      r.profiles[j] == st.profiles[j]
    ensures ProfileIndex(st.profiles, profile.studentId).None? ==> r.profiles[|st.profiles|] == profile
    ensures r == st.(profiles := r.profiles)
  {
    var ps := st.profiles;
    match ProfileIndex(ps, profile.studentId)
    case Some(i) =>
      var r := st.(profiles := ps[i := profile]);
      UpsertLookup(ps, i, profile, r.profiles);
      r
    case None =>
      var r := st.(profiles := ps + [profile]);
      UpsertLookup(ps, |ps|, profile, r.profiles);
      r
  }

  /**
   After writing `profile` at position `i` (the first slot with its id, or a
   new last slot), lookups find it under its own id and find what they found
   before under every other id.
   */
  lemma UpsertLookup(ps: seq<StudentProfile>, i: nat, profile: StudentProfile, qs: seq<StudentProfile>)
    requires i <= |ps|
    requires forall j :: 0 <= j < i ==> ps[j].studentId != profile.studentId
    requires i < |ps| ==> ps[i].studentId == profile.studentId && qs == ps[i := profile]
    requires i == |ps| ==> qs == ps + [profile]
    ensures ProfileIndex(qs, profile.studentId) == Some(i)
    ensures forall id :: id != profile.studentId ==> ProfileIndex(qs, id) == ProfileIndex(ps, id)
  {
    FindIndexFirst(qs, (p: StudentProfile) => p.studentId == profile.studentId, i);
    forall id | id != profile.studentId
      ensures ProfileIndex(qs, id) == ProfileIndex(ps, id)
    {
      var f := (p: StudentProfile) => p.studentId == id;
      assert forall j :: 0 <= j < |ps| && j < |qs| ==> f(qs[j]) == f(ps[j]);
      FindIndexAgree(ps, qs, f);
    }
  }

  // ===========================================================================
  // Derived views
  // ===========================================================================

  /** `uploadDate >= cutoffDate`, with the upload date taken at UTC midnight and both in milliseconds. */
  predicate UploadedSince(n: Note, cutoffMs: int) {
    n.uploadDay * MsPerDay >= cutoffMs
  }

  /** The stored notes uploaded at or after the cutoff, in stored order. */
  function UploadedSinceAll(ns: seq<Note>, cutoffMs: int): seq<Note> {
    Filter(ns, (n: Note) => UploadedSince(n, cutoffMs))
  }

  /**
   The filter and cap of `getRecentNotes(days)` called at time `nowMs`
   (milliseconds since the epoch): the notes uploaded at or after `days` days
   before now, in order, at most ten of them.
   */
  function Recent(ns: seq<Note>, days: int, nowMs: int): (r: seq<Note>)
    ensures |r| <= RecentLimit
    ensures forall n :: n in r ==> n in ns && UploadedSince(n, nowMs - days * MsPerDay)
    ensures IsSubseq(r, ns)
    ensures r <= UploadedSinceAll(ns, nowMs - days * MsPerDay)
    ensures |r| == if |UploadedSinceAll(ns, nowMs - days * MsPerDay)| < RecentLimit
                   then |UploadedSinceAll(ns, nowMs - days * MsPerDay)| else RecentLimit
    ensures |r| < RecentLimit ==>
      forall n :: n in ns && UploadedSince(n, nowMs - days * MsPerDay) ==> n in r
  {
    var cutoff := nowMs - days * MsPerDay;
    var recent := UploadedSinceAll(ns, cutoff);
    FilterIsSubseq(ns, (n: Note) => UploadedSince(n, cutoff));
    var r := Take(recent, RecentLimit);
    PrefixIsSubseq(r, recent);
    SubseqTrans(r, recent, ns);
    r
  }

  /**
   `getRecentNotes(days)` at time `nowMs`, over the stored notes; a missing
   `days` argument is the default window of seven days.
   */
  function GetRecentNotes(st: Store, days: Option<int>, nowMs: int): (r: seq<Note>)
    ensures |r| <= RecentLimit
    ensures forall n :: n in r ==> n in Notes(st) && UploadedSince(n, nowMs - days.GetOr(DefaultRecentDays) * MsPerDay)
    ensures r <= UploadedSinceAll(Notes(st), nowMs - days.GetOr(DefaultRecentDays) * MsPerDay)
    ensures var recent := UploadedSinceAll(Notes(st), nowMs - days.GetOr(DefaultRecentDays) * MsPerDay);
      |r| == if |recent| < RecentLimit then |recent| else RecentLimit
  {
    Recent(Notes(st), days.GetOr(DefaultRecentDays), nowMs)
  }

  /** The subject of every stored note, in stored order (`notes.map(note => note.subject)`). */
  function Subjects(ns: seq<Note>): (r: seq<string>)
    ensures |r| == |ns|
    ensures forall i :: 0 <= i < |ns| ==> r[i] == ns[i].subject
  {
    if |ns| == 0 then [] else [ns[0].subject] + Subjects(ns[1..])
  }

  /** `[...new Set(notes.map(note => note.subject))].sort()`: each subject once, in ascending order. */
  function UniqueSubjects(ns: seq<Note>): (r: seq<string>)
    ensures Order.StrictlySorted(r)
    ensures forall s :: s in r <==> exists n :: n in ns && n.subject == s
  {
    var all := Subjects(ns);
    var distinct := Order.Dedup(all);
    var r := Order.Sort(distinct);
    Order.PermutationKeepsDistinct(distinct, r);
    Order.SortedDistinctIsStrict(r);
    assert forall s :: s in r <==> s in distinct by {
      forall s
        ensures s in r <==> s in distinct
      {
        assert s in r <==> s in multiset(r);
        assert s in distinct <==> s in multiset(distinct);
      }
    }
    forall s | s in all
      ensures exists n :: n in ns && n.subject == s
    {
      var i :| 0 <= i < |all| && all[i] == s;
      assert ns[i] in ns;
    }
    forall n | n in ns
      ensures n.subject in all
    {
      var i :| 0 <= i < |ns| && ns[i] == n;
      assert all[i] == n.subject;
    }
    r
  }

  /** `getUniqueSubjects`, over the stored notes. */
  function GetUniqueSubjects(st: Store): (r: seq<string>)
    ensures Order.StrictlySorted(r)
    ensures forall s :: s in r <==> exists n :: n in Notes(st) && n.subject == s
  {
    UniqueSubjects(Notes(st))
  }
}

=== FILE: storage_properties.dfy ===
/**
 Properties of the note store that relate several calls: read stability after
 seeding, idempotence, case-insensitivity of search, the recent-uploads
 window in days, bookmark joins over dangling references, and the concrete
 first-run scenarios.
 */
module StorageProperties {
  import opened Wrappers
  import opened Entities
  import opened Seqs
  import opened Text
  import Order
  import Defaults
  import opened Storage

  // ---------------------------------------------------------------------------
  // Seeding
  // ---------------------------------------------------------------------------

  /** A read after the seeding read sees the same list and writes nothing more. */
  lemma NotesReadIsStable(st: Store)
    ensures GetNotes(GetNotes(st).1) == (GetNotes(st).0, GetNotes(st).1)
    ensures Notes(GetNotes(st).1) == Notes(st)
  {
  }

  /** The first read of a fresh store yields the four sample notes "1".."4"; the second read yields them again. */
  lemma FreshStoreSeedsFourNotes()
    ensures |Notes(EmptyStore)| == 4
    ensures Notes(EmptyStore)[0].id == "1" && Notes(EmptyStore)[1].id == "2"
    ensures Notes(EmptyStore)[2].id == "3" && Notes(EmptyStore)[3].id == "4"
    ensures GetNotes(EmptyStore).1.notes == Some(Defaults.DefaultNotes)
    ensures GetNotes(GetNotes(EmptyStore).1).0 == GetNotes(EmptyStore).0
  {
  }

  /** Seeding only happens for an absent key: a stored empty list stays empty. */
  lemma EmptyListIsNotReseeded(st: Store)
    requires st.notes == Some([])
    ensures Notes(st) == []
    ensures Notes(DeleteNote(AddNote(st, Defaults.SeedNote1), "1")) == []
  {
    var added := AddNote(st, Defaults.SeedNote1);
    assert Notes(added) == [Defaults.SeedNote1];
    FilterNone(Notes(added), (n: Note) => n.id != "1");
  }

  // ---------------------------------------------------------------------------
  // Notes
  // ---------------------------------------------------------------------------

  /** Deleting the same id twice leaves the store as deleting it once. */
  lemma DeleteNoteIdempotent(st: Store, id: string)
    ensures DeleteNote(DeleteNote(st, id), id) == DeleteNote(st, id)
  {
    FilterIdempotent(Notes(st), (n: Note) => n.id != id);
  }

  /** Deleting an id no note carries changes no note. */
  lemma DeleteAbsentIdKeepsNotes(st: Store, id: string)
    requires forall i :: 0 <= i < |Notes(st)| ==> Notes(st)[i].id != id
    ensures Notes(DeleteNote(st, id)) == Notes(st)
  {
    FilterAll(Notes(st), (n: Note) => n.id != id);
  }

  /** Adding a note with a fresh id and deleting that id again restores the list. */
  lemma AddThenDeleteRestores(st: Store, n: Note)
    requires forall i :: 0 <= i < |Notes(st)| ==> Notes(st)[i].id != n.id
    ensures Notes(DeleteNote(AddNote(st, n), n.id)) == Notes(st)
  {
    var keep := (m: Note) => m.id != n.id;
    assert Notes(AddNote(st, n)) == [n] + Notes(st);
    assert ([n] + Notes(st))[1..] == Notes(st);
    FilterAll(Notes(st), keep);
  }

  /**
   A note added for semester `k` (written as a plain numeral) becomes visible
   exactly to the students at semester `k` or later.
   */
  lemma AddedNoteVisibleFromItsSemester(st: Store, n: Note, k: nat, currentSemester: int)
    requires n.semester == Decimal(k)
    ensures n in GetAccessibleNotes(AddNote(st, n), currentSemester) <==> k <= currentSemester
  {
    ParseDecimal(k, "");
    assert Decimal(k) + "" == Decimal(k);
    assert n in Notes(AddNote(st, n));
  }

  /** The same fact at the concrete semesters 2 and 3. */
  lemma SemesterThreeNoteScenario(st: Store, n: Note)
    requires n.semester == "3"
    ensures n !in GetAccessibleNotes(AddNote(st, n), 2)
    ensures n in GetAccessibleNotes(AddNote(st, n), 3)
  {
    assert Decimal(3) == "3";
    AddedNoteVisibleFromItsSemester(st, n, 3, 2);
    AddedNoteVisibleFromItsSemester(st, n, 3, 3);
  }

  /** A note whose semester text holds no digit is visible at no semester. */
  lemma UnparsableSemesterHidden(st: Store, n: Note, currentSemester: int)
    requires forall i :: 0 <= i < |n.semester| ==> !IsDigit(n.semester[i], 10)
    ensures n !in GetAccessibleNotes(st, currentSemester)
  {
  }

  // ---------------------------------------------------------------------------
  // Search
  // ---------------------------------------------------------------------------

  /** The text filter ignores the case of the query. */
  lemma SearchIgnoresQueryCase(st: Store, query: string, semester: Option<string>, subject: Option<string>,
                               currentSemester: Option<int>)
    ensures SearchNotes(st, ToLower(query), semester, subject, currentSemester)
         == SearchNotes(st, query, semester, subject, currentSemester)
  {
    ToLowerIdempotent(query);
    ToLowerEmpty(query);
  }

  /** A note whose lower-cased title starts with `term` matches `term`. */
  lemma TitlePrefixMatches(n: Note, term: string)
    requires term <= ToLower(n.title)
    ensures MatchesText(n, term)
  {
  }

  /** "Database Normalization" starts with "database" once lower-cased. */
  lemma DatabaseTitlePrefix(t: string)
    requires t == "Database Normalization"
    ensures "database" <= ToLower(t)
  {
    var title := ToLower(t);
    forall i | 0 <= i < 8
      ensures title[i] == "database"[i]
    {
      assert title[i] == LowerChar(t[i]);
    }
  }

  /** The query "database" is already lower-case. */
  lemma DatabaseIsLowerCase(q: string)
    requires q == "database"
    ensures ToLower(q) == q
  {
    assert forall i :: 0 <= i < |q| ==> 'a' <= q[i] <= 'z';
    var lowered := ToLower(q);
    assert forall i :: 0 <= i < |q| ==> lowered[i] == LowerChar(q[i]) == q[i];
  }

  /** A visible note that matches the query is found by a search with no category filter. */
  lemma VisibleMatchIsFound(st: Store, q: string, n: Note, currentSemester: int)
    requires currentSemester != 0 && q != ""
    requires n in GetAccessibleNotes(st, currentSemester)
    requires MatchesText(n, ToLower(q))
    ensures n in SearchNotes(st, q, Some("all"), Some("all"), Some(currentSemester))
  {
  }

  /** Seed note "2" (semester "4") is visible to a semester-8 student on a fresh store. */
  lemma SeedNoteTwoVisibleAtEight(st: Store, n: Note)
    requires st == EmptyStore && n == Defaults.SeedNote2
    ensures n in GetAccessibleNotes(st, 8)
  {
    assert Notes(st)[1] == n;
    SemesterFourVisibleAtEight(n);
  }

  /** A note of semester "4" is visible at semester 8. */
  lemma SemesterFourVisibleAtEight(n: Note)
    requires n.semester == "4"
    ensures CanAccess(n, 8)
  {
    assert n.semester == Decimal(4);
    ParseDecimal(4, "");
    assert Decimal(4) + "" == Decimal(4);
  }

  /**
   A search for "database" by a semester-8 student on a fresh store finds the
   "Database Normalization" note (id "2").
   */
  lemma DatabaseSearchFindsSeedNoteTwo(st: Store, q: string, n: Note)
    requires st == EmptyStore && q == "database" && n == Defaults.SeedNote2
    ensures n in SearchNotes(st, q, Some("all"), Some("all"), Some(8))
  {
    SeedNoteTwoVisibleAtEight(st, n);
    DatabaseTitlePrefix(n.title);
    DatabaseIsLowerCase(q);
    TitlePrefixMatches(n, ToLower(q));
    VisibleMatchIsFound(st, q, n, 8);
  }

  /** With a viewer semester, an unfiltered search returns exactly the accessible notes, in order. */
  lemma EmptySearchIsAccessibleNotes(st: Store, currentSemester: int)
    requires currentSemester != 0
    ensures SearchNotes(st, "", Some("all"), Some("all"), Some(currentSemester))
         == GetAccessibleNotes(st, currentSemester)
  {
  }

  // ---------------------------------------------------------------------------
  // Notifications
  // ---------------------------------------------------------------------------

  /** Marking a notification read twice is marking it once. */
  lemma {:induction false} MarkReadIdempotent(ns: seq<Notification>, id: string)
    ensures MarkRead(MarkRead(ns, id), id) == MarkRead(ns, id)
  {
    var once := MarkRead(ns, id);
    var twice := MarkRead(once, id);
    forall i | 0 <= i < |ns|
      ensures twice[i] == once[i]
    {
    }
  }

  /** Marking an id that no notification carries changes nothing. */
  lemma MarkReadAbsentIsNoOp(ns: seq<Notification>, id: string)
    requires forall i :: 0 <= i < |ns| ==> ns[i].id != id
    ensures MarkRead(ns, id) == ns
  {
  }

  /** The unread count drops by exactly the number of unread notifications carrying the id. */
  lemma {:induction false} MarkReadUnreadCount(ns: seq<Notification>, id: string)
    ensures UnreadCount(MarkRead(ns, id)) == UnreadCount(ns) - UnreadWithId(ns, id)
    ensures UnreadWithId(MarkRead(ns, id), id) == 0
  {
    if |ns| > 0 {
      MarkReadUnreadCount(ns[1..], id);
      var r := MarkRead(ns, id);
      assert r[1..] == MarkRead(ns[1..], id);
    }
  }

  /** Reading the welcome notification of a fresh store leaves no unread notification. */
  lemma WelcomeReadScenario(today: string)
    ensures UnreadCount(Notifications(EmptyStore, today)) == 1
    ensures UnreadCount(Notifications(MarkNotificationAsRead(EmptyStore, "1", today), today)) == 0
  {
    var seeded := Notifications(EmptyStore, today);
    assert seeded == [Defaults.WelcomeNotification(today)];
    MarkReadUnreadCount(seeded, "1");
  }

  /** A new notification raises the unread badge by one when it is unread and leaves it alone otherwise. */
  lemma AddNotificationUnreadCount(st: Store, n: Notification, today: string)
    ensures UnreadCount(Notifications(AddNotification(st, n, today), today))
         == UnreadCount(Notifications(st, today)) + (if n.isRead then 0 else 1)
  {
    var ns := Notifications(st, today);
    assert ([n] + ns)[1..] == ns;
  }

  // ---------------------------------------------------------------------------
  // Bookmarks
  // ---------------------------------------------------------------------------

  /** Adding a bookmark and removing the same pair again leaves the pair unbookmarked. */
  lemma BookmarkToggleScenario(st: Store, noteId: string, studentId: string, id: string, at: string)
    ensures IsBookmarked(AddBookmark(st, noteId, studentId, id, at), noteId, studentId)
    ensures !IsBookmarked(RemoveBookmark(AddBookmark(st, noteId, studentId, id, at), noteId, studentId), noteId, studentId)
  {
  }

  /** Bookmarking a pair that was not bookmarked and removing it again restores the store. */
  lemma AddThenRemoveBookmarkRestores(st: Store, noteId: string, studentId: string, id: string, at: string)
    requires !IsBookmarked(st, noteId, studentId)
    ensures RemoveBookmark(AddBookmark(st, noteId, studentId, id, at), noteId, studentId) == st
  {
    var keep := (b: Bookmark) => !IsPair(b, noteId, studentId);
    var b := Bookmark(id, noteId, studentId, at);
    assert AddBookmark(st, noteId, studentId, id, at).bookmarks == st.bookmarks + [b];
    FilterAppend(st.bookmarks, [b], keep);
    FilterAll(st.bookmarks, keep);
    assert Filter([b], keep) == [];
  }

  /** Joining a list with one more bookmark at its end adds that bookmark's note, if any. */
  lemma {:induction false} JoinNotesSnoc(bs: seq<Bookmark>, b: Bookmark, ns: seq<Note>)
    ensures JoinNotes(bs + [b], ns) == JoinNotes(bs, ns) + (match FindNote(ns, b.noteId) case Some(n) => [n] case None => [])
  {
    JoinSnoc(bs, b, ns);
  }

  lemma {:induction false} JoinSnoc(bs: seq<Bookmark>, b: Bookmark, ns: seq<Note>)
    ensures Join(bs + [b], ns) == Join(bs, ns) + (match FindNote(ns, b.noteId) case Some(n) => [n] case None => [])
    decreases |bs|
  {
    if |bs| == 0 {
      assert bs + [b] == [b];
    } else {
      assert (bs + [b])[1..] == bs[1..] + [b];
      assert (bs + [b])[0] == bs[0];
      JoinSnoc(bs[1..], b, ns);
    }
  }

  /**
   A bookmark whose note does not exist adds nothing to anyone's bookmarked
   notes and causes no failure.
   */
  lemma DanglingBookmarkIsDropped(st: Store, noteId: string, studentId: string, id: string, at: string,
                                  viewer: string)
    requires FindNote(Notes(st), noteId).None?
    ensures GetBookmarkedNotes(AddBookmark(st, noteId, studentId, id, at), viewer) == GetBookmarkedNotes(st, viewer)
  {
    var b := Bookmark(id, noteId, studentId, at);
    var r := AddBookmark(st, noteId, studentId, id, at);
    assert r.bookmarks == st.bookmarks + [b];
    var mine := (x: Bookmark) => x.studentId == viewer;
    FilterAppend(st.bookmarks, [b], mine);
    assert Notes(r) == Notes(st);
    if b.studentId == viewer {
      assert Filter([b], mine) == [b];
      JoinNotesSnoc(BookmarksOf(st.bookmarks, viewer), b, Notes(st));
    } else {
      assert Filter([b], mine) == [];
      assert BookmarksOf(r.bookmarks, viewer) == BookmarksOf(st.bookmarks, viewer);
    }
  }

  // ---------------------------------------------------------------------------
  // Feedback
  // ---------------------------------------------------------------------------

  /**
   Submitting feedback raises the pending count by exactly one, and every
   earlier record keeps its status, one place further down the list.
   */
  lemma AddFeedbackPendingCount(st: Store, draft: FeedbackDraft, id: string, submittedAt: string)
    ensures PendingCount(AddFeedback(st, draft, id, submittedAt).feedback) == PendingCount(st.feedback) + 1
    ensures forall i :: 0 <= i < |st.feedback| ==>
      AddFeedback(st, draft, id, submittedAt).feedback[i + 1].status == st.feedback[i].status
  {
    var fs := AddFeedback(st, draft, id, submittedAt).feedback;
    assert fs == [fs[0]] + st.feedback;
  }

  // ---------------------------------------------------------------------------
  // Profiles
  // ---------------------------------------------------------------------------

  /** Saving the same profile twice leaves the store as saving it once. */
  lemma UpdateProfileIdempotent(st: Store, profile: StudentProfile)
    ensures UpdateStudentProfile(UpdateStudentProfile(st, profile), profile) == UpdateStudentProfile(st, profile)
  {
    var once := UpdateStudentProfile(st, profile);
    assert GetStudentProfile(once, profile.studentId) == Some(profile);
    var i := ProfileIndex(once.profiles, profile.studentId).value;
    assert once.profiles[i] == profile;
    assert once.profiles[i := profile] == once.profiles;
  }

  // ---------------------------------------------------------------------------
  // Derived views
  // ---------------------------------------------------------------------------

  /**
   The recent-uploads window in whole days: at `nowMs`, `tMs` milliseconds
   into day `today`, a note is recent exactly when it was uploaded on day
   `today - days` or later, except that the first of those days drops out as
   soon as the current day has begun.
   */
  lemma RecentWindowInDays(n: Note, days: int, today: int, tMs: int)
    requires 0 <= tMs < MsPerDay
    ensures UploadedSince(n, today * MsPerDay + tMs - days * MsPerDay)
        <==> n.uploadDay >= today - days + (if tMs > 0 then 1 else 0)
  {
    var d := n.uploadDay - (today - days);
    assert n.uploadDay * MsPerDay - (today * MsPerDay - days * MsPerDay) == d * MsPerDay;
  }

  /** Any ascending, duplicate-free list of exactly the subjects of `ns` is the one `getUniqueSubjects` returns for `ns`. */
  lemma UniqueSubjectsIsCanonical(ns: seq<Note>, subjects: seq<string>)
    requires Order.StrictlySorted(subjects)
    requires forall s :: s in subjects <==> exists n :: n in ns && n.subject == s
    ensures subjects == UniqueSubjects(ns)
  {
    Order.StrictlySortedUnique(subjects, UniqueSubjects(ns));
  }
}

=== FILE: text.dfy ===
/**
 The string primitives the note store relies on: `toLowerCase`, `includes`
 and the radix-less `parseInt` of JavaScript.
 */
module Text {
  import opened Wrappers

  // ---------------------------------------------------------------------------
  // toLowerCase (ASCII letters only)
  // ---------------------------------------------------------------------------

  predicate IsUpper(c: char) {
    'A' <= c <= 'Z'
  }

  function LowerChar(c: char): (r: char)
    ensures !IsUpper(r)
    ensures IsUpper(c) ==> r as int == c as int + 32
    ensures !IsUpper(c) ==> r == c
  {
    if IsUpper(c) then (c as int + 32) as char else c
  }

  /** `s.toLowerCase()`: every upper-case letter mapped to its lower-case form. */
  function ToLower(s: string): (r: string)
    ensures |r| == |s|
    ensures forall i :: 0 <= i < |s| ==> r[i] == LowerChar(s[i])
  {
    if |s| == 0 then "" else [LowerChar(s[0])] + ToLower(s[1..])
  }

  /** Lower-casing twice is lower-casing once. */
  lemma ToLowerIdempotent(s: string)
    ensures ToLower(ToLower(s)) == ToLower(s)
  {
    var once := ToLower(s);
    var twice := ToLower(once);
    assert forall i :: 0 <= i < |s| ==> twice[i] == once[i];
  }

  /** Only the empty string lower-cases to the empty string. */
  lemma ToLowerEmpty(s: string)
    ensures ToLower(s) == "" <==> s == ""
  {
    assert |ToLower(s)| == |s|;
  }

  // ---------------------------------------------------------------------------
  // includes
  // ---------------------------------------------------------------------------

  /** `hay.includes(needle)`, scanning start positions from the left. */
  predicate Contains(hay: string, needle: string)
    ensures Contains(hay, needle) ==> |needle| <= |hay|
    ensures |needle| == 0 ==> Contains(hay, needle)
    decreases |hay|
  {
    needle <= hay || (|hay| > 0 && Contains(hay[1..], needle))
  }

  /** The position-based reading of `includes`: `needle` occurs in `hay` at some offset. */
  ghost predicate OccursAt(hay: string, needle: string, i: int) {
    0 <= i && i + |needle| <= |hay| && hay[i..i + |needle|] == needle
  }

  /** The scan finds `needle` exactly when it occurs at some offset. */
  lemma {:induction false} ContainsIffOccurs(hay: string, needle: string)
    ensures Contains(hay, needle) <==> exists i :: OccursAt(hay, needle, i)
    decreases |hay|
  {
    if needle <= hay {
      assert OccursAt(hay, needle, 0);
    } else if |hay| == 0 {
      assert |needle| > 0;
    } else {
      ContainsIffOccurs(hay[1..], needle);
      if exists i :: OccursAt(hay[1..], needle, i) {
        var i :| OccursAt(hay[1..], needle, i);
        assert hay[1..][i..i + |needle|] == hay[i + 1..i + 1 + |needle|];
        assert OccursAt(hay, needle, i + 1);
      }
      assert !OccursAt(hay, needle, 0) by {
        if |needle| <= |hay| {
          assert hay[..|needle|] != needle;
        }
      }
      forall i | OccursAt(hay, needle, i)
        ensures OccursAt(hay[1..], needle, i - 1)
      {
        assert hay[1..][i - 1..i - 1 + |needle|] == hay[i..i + |needle|];
      }
    }
  }

  // ---------------------------------------------------------------------------
  // parseInt (no radix argument)
  // ---------------------------------------------------------------------------

  /**
   The characters `parseInt` skips before the number: the white space and line
   terminators of ECMAScript (tab, vertical tab, form feed, the Unicode space
   separators, the byte order mark, line feed, carriage return and the line and
   paragraph separators).
   */
  predicate IsJsWhiteSpace(c: char) {
    || c == '\U{0009}' || c == '\U{000B}' || c == '\U{000C}' || c == '\U{0020}'
    || c == '\U{00A0}' || c == '\U{FEFF}' || c == '\U{1680}'
    || ('\U{2000}' <= c <= '\U{200A}') || c == '\U{202F}' || c == '\U{205F}' || c == '\U{3000}'
    || c == '\U{000A}' || c == '\U{000D}' || c == '\U{2028}' || c == '\U{2029}'
  }

  /** `s` without its leading white space. */
  function TrimStart(s: string): (r: string)
    ensures |r| == 0 || !IsJsWhiteSpace(r[0])
    ensures forall k :: 0 <= k < |s| - |r| ==> IsJsWhiteSpace(s[k])
    ensures |r| <= |s| && r == s[|s| - |r|..]
  {
    if |s| > 0 && IsJsWhiteSpace(s[0]) then TrimStart(s[1..]) else s
  }

  /** The value of `c` as a digit in base `radix` (10 or 16), or -1 when it is none. */
  function DigitValue(c: char, radix: nat): (r: int)
    requires radix == 10 || radix == 16
    ensures -1 <= r < radix as int
  {
    if '0' <= c <= '9' then c as int - '0' as int
    else if radix == 16 && 'a' <= c <= 'f' then c as int - 'a' as int + 10
    else if radix == 16 && 'A' <= c <= 'F' then c as int - 'A' as int + 10
    else -1
  }

  predicate IsDigit(c: char, radix: nat)
    requires radix == 10 || radix == 16
  {
    DigitValue(c, radix) >= 0
  }

  /** The longest prefix of `s` made of digits of base `radix`. */
  function DigitPrefix(s: string, radix: nat): (r: string)
    requires radix == 10 || radix == 16
    ensures r <= s
    ensures forall i :: 0 <= i < |r| ==> IsDigit(r[i], radix)
    ensures |r| < |s| ==> !IsDigit(s[|r|], radix)
  {
    if |s| > 0 && IsDigit(s[0], radix) then [s[0]] + DigitPrefix(s[1..], radix) else ""
  }

  /** The number a string of digits denotes in base `radix`, most significant digit first. */
  function DigitsValue(ds: string, radix: nat): (r: nat)
    requires radix == 10 || radix == 16
    requires forall i :: 0 <= i < |ds| ==> IsDigit(ds[i], radix)
  {
    if |ds| == 0 then 0
    else
      var last := ds[|ds| - 1];
      assert IsDigit(last, radix);
      DigitsValue(ds[..|ds| - 1], radix) * radix + DigitValue(last, radix)
  }

  /**
   `parseInt(s)`: skip leading white space, read an optional sign, switch to
   base 16 after a `0x`/`0X` prefix, then read the longest run of digits;
   `None` is `NaN`, returned when that run is empty. Characters after the run
   are ignored.
   */
  function ParseInt(s: string): (r: Option<int>)
    ensures r.Some? ==> exists i :: 0 <= i < |s| && IsDigit(s[i], 10)
  {
    var t := TrimStart(s);
    var u := SplitSign(t).1;
    assert |u| == 0 || u[0] == s[|s| - |u|];
    var r := ParseSigned(t);
    assert r.Some? ==> |u| > 0 && IsDigit(u[0], 10);
    r
  }

  /** `parseInt` once the leading white space is gone. */
  function ParseSigned(t: string): Option<int> {
    var signed := SplitSign(t);
    var based := SplitRadix(signed.1);
    match ParseDigits(based.1, based.0)
    case None => None
    case Some(v) =>
      var magnitude: int := v;
      Some(if signed.0 then -magnitude else magnitude)
  }

  /** Whether a minus sign leads, and the text after an optional `-` or `+`. */
  function SplitSign(t: string): (bool, string) {
    if |t| > 0 && t[0] == '-' then (true, t[1..])
    else if |t| > 0 && t[0] == '+' then (false, t[1..])
    else (false, t)
  }

  /** Base 16 and the text after a `0x` or `0X` prefix; base 10 and the whole text otherwise. */
  function SplitRadix(u: string): (r: (nat, string))
    ensures r.0 == 10 || r.0 == 16
  {
    if |u| >= 2 && u[0] == '0' && (u[1] == 'x' || u[1] == 'X') then (16, u[2..]) else (10, u)
  }

  /** The value of the leading digit run, or `None` when `w` does not start with a digit. */
  function ParseDigits(w: string, radix: nat): Option<nat>
    requires radix == 10 || radix == 16
  {
    var ds := DigitPrefix(w, radix);
    if |ds| == 0 then None else Some(DigitsValue(ds, radix))
  }

  // ---------------------------------------------------------------------------
  // The decimal rendering of a natural number, the partner of ParseInt
  // ---------------------------------------------------------------------------

  function DigitChar(d: nat): (c: char)
    requires d < 10
    ensures IsDigit(c, 10) && DigitValue(c, 10) == d
  {
    ('0' as int + d) as char
  }

  /** The shortest decimal numeral of `n` (what `String(n)` produces). */
  function Decimal(n: nat): (r: string)
    ensures |r| > 0
    ensures forall i :: 0 <= i < |r| ==> IsDigit(r[i], 10)
  {
    if n < 10 then [DigitChar(n)] else Decimal(n / 10) + [DigitChar(n % 10)]
  }

  lemma {:induction false} DecimalValue(n: nat)
    ensures DigitsValue(Decimal(n), 10) == n
  {
    if n >= 10 {
      DecimalValue(n / 10);
      var d := Decimal(n);
      assert d[..|d| - 1] == Decimal(n / 10);
    }
  }

  /** A run of digits followed by a non-digit is exactly the digit prefix. */
  lemma {:induction false} DigitPrefixOfDigits(ds: string, rest: string, radix: nat)
    requires radix == 10 || radix == 16
    requires forall i :: 0 <= i < |ds| ==> IsDigit(ds[i], radix)
    requires |rest| == 0 || !IsDigit(rest[0], radix)
    ensures DigitPrefix(ds + rest, radix) == ds
    decreases |ds|
  {
    if |ds| > 0 {
      DigitPrefixOfDigits(ds[1..], rest, radix);
      assert (ds + rest)[1..] == ds[1..] + rest;
      assert [ds[0]] + ds[1..] == ds;
    } else {
      assert ds + rest == rest;
    }
  }

  /**
   Round trip: `parseInt` reads back the decimal numeral of `n`, whatever
   non-digit text follows it (`parseInt("3rd") == 3`, `parseInt("3x") == 3`),
   except an `x` or `X` right after the numeral `0`, which starts a `0x` prefix.
   */
  lemma ParseDecimal(n: nat, rest: string)
    requires |rest| == 0 || (!IsDigit(rest[0], 10) && (n > 0 || (rest[0] != 'x' && rest[0] != 'X')))
    ensures ParseInt(Decimal(n) + rest) == Some(n)
  {
    var d := Decimal(n);
    var s := d + rest;
    assert s[0] == d[0];
    // `Decimal` writes no leading zero unless the number is zero itself, so
    // only a following `x` could turn the numeral into a `0x` prefix.
    DecimalNoLeadingZero(n);
    if n == 0 {
      assert d == "0";
      assert |s| >= 2 ==> s[1] == rest[0];
    }
    ParseUnsigned(s);
    DigitPrefixOfDigits(d, rest, 10);
    DecimalValue(n);
  }

  /** A text that starts with a decimal digit, and not with `0x`, is read as one decimal digit run. */
  lemma ParseUnsigned(s: string)
    requires |s| > 0 && IsDigit(s[0], 10)
    requires !(|s| >= 2 && s[0] == '0' && (s[1] == 'x' || s[1] == 'X'))
    ensures |DigitPrefix(s, 10)| > 0
    ensures ParseInt(s) == Some(DigitsValue(DigitPrefix(s, 10), 10))
  {
    assert TrimStart(s) == s;
    assert SplitSign(s) == (false, s);
    assert SplitRadix(s) == (10, s);
  }

  lemma {:induction false} DecimalNoLeadingZero(n: nat)
    ensures n > 0 ==> Decimal(n)[0] != '0'
  {
    if n >= 10 {
      DecimalNoLeadingZero(n / 10);
      assert Decimal(n)[0] == Decimal(n / 10)[0];
    }
  }

  /** Leading white space does not change what `parseInt` reads. */
  lemma ParseSkipsWhiteSpace(c: char, s: string)
    requires IsJsWhiteSpace(c)
    ensures ParseInt([c] + s) == ParseInt(s)
  {
    assert ([c] + s)[1..] == s;
    assert TrimStart([c] + s) == TrimStart(s);
  }
}

=== FILE: wrappers.dfy ===
/** Optional values: the model's stand-in for `undefined`, `null` and `NaN`. */
module Wrappers {

  datatype Option<+T> = None | Some(value: T) {

    /** The encapsulated value, or `default` when there is none. */
    function GetOr(default: T): T {
      match this
      case Some(v) => v
      case None => default
    }
  }
}
